=== FILE: README.md ===
# MyAnonaMouse search plugins for qBittorrent, modelled in Dafny

The repository holds two qBittorrent search-engine plugins for the
MyAnonaMouse (MAM) tracker. Both post a JSON search request to MAM's
`loadSearchJSONbasic.php` endpoint and turn every torrent of the reply into
one 8-field record for the host's `prettyPrinter`.

- `myanonymouse-qbittorrent-plugin.py` (module `Plugin`) sends one request.
  It refuses to search without a username and a password. It authenticates
  with a `Cookie` header, or else with HTTP basic credentials. It annotates
  each title with up to two author names, reformats ISO dates, and prints
  sizes with `round(x, 2)`.
- `mam.py` (module `Mam`) pages through at most three pages of one hundred
  results. Each page has its own `startNumber`. Each torrent goes through
  `_process_result`. Sizes print with `:.1f`. Dates go through
  `datetime.strptime(s, "%Y-%m-%d %H:%M:%S")`.

Shared pieces live in their own modules:

- `Builtins`: Python truthiness, `str()`, `str.isdigit`, `str.strip`, and
  `int()` of text.
- `Sizes`: both size formatters.
- `Dates`: `strptime` and `_parse_date`.
- `Api`: the request, reply and record types, the links, and the walk over
  a `data` list.

Calls the scripts make into code they do not define are parameters. Those
are the network, JSON, base64 and URL decoding, and time conversion:

- `retrieve_url` followed by `json.loads` is a `transport` from `Request`
  to `Reply`.
- `unquote_plus`, `base64.b64encode`, `json.loads` of the author field,
  `datetime.fromisoformat(...).timestamp()` and `datetime.timestamp()` are
  functions in a `Host` record.
- `prettyPrinter` is modelled by the sequence of records a search returns.

The two scripts' category tables differ: the plugin script maps all, books
and audio, and `mam.py` has nine tags of which books, music and tv get their
own codes.

## Model

| member | source | states |
|---|---|---|
| Plugin.CategoryCode | myanonymouse-qbittorrent-plugin.py:28-32 | "books" gives "14" and "audio" gives "13", each if and only if; every other tag, known or not, gives "0" (the `.get(cat, '0')` default of line 60) |
| Plugin.Headers | myanonymouse-qbittorrent-plugin.py:87-100 | a `Cookie` header exactly when cookies are configured, equal to them; otherwise `Authorization: Basic b64(user:pass)` exactly when both credentials are set; never both; the fixed headers always kept; no headers (the search fails) exactly when the credentials must be encoded and are not ASCII |
| Plugin.SearchAuthenticates | myanonymouse-qbittorrent-plugin.py:92-103 | with both credentials set, a request is sent exactly when cookies are set or the credentials are ASCII, and it carries `Cookie` exactly when cookies are set and `Authorization` exactly when they are not |
| Plugin.Search | myanonymouse-qbittorrent-plugin.py:50-118 | no request and no record without both username and password; at most one request, to the search URL, with exactly the headers `Headers` builds (cookie or `Basic` credentials) and exactly the fixed body with the raw query text, category `[CategoryCode(cat)]` and offset "0"; the records are those of the reply's `data` list, in order, and none when `data` is missing or not a list or the request fails |
| Plugin.ParseAndPrint | myanonymouse-qbittorrent-plugin.py:120-189 | a record exactly when the element is a JSON object; its engine URL is the site URL, its size is `format_size_bytes` of `size` (default 0), its seeders and leechers are `str()` of the fields (default -1), and its date is the `pub_date` conversion of `added` (default -1) |
| Plugin.RecordDefaults | myanonymouse-qbittorrent-plugin.py:126-158 | missing seeders, leechers or date print "-1" |
| Plugin.RecordDescLink | myanonymouse-qbittorrent-plugin.py:126-140 | the detail link is the detail path followed by `str(id)`, and the bare detail path when the id is missing |
| Plugin.RecordTitle | myanonymouse-qbittorrent-plugin.py:127-153 | the name is the annotated `title`, else the annotated `name`, else a string starting with "Unknown Title" |
| Plugin.RecordLink | myanonymouse-qbittorrent-plugin.py:132-137 | reading the link back gives the hash exactly when `dl` is truthy, and the torrent id otherwise |
| Plugin.Annotate | myanonymouse-qbittorrent-plugin.py:145-155 | the title changes if and only if the author field is a non-empty string that decodes to a non-empty object whose first one or two values are strings and the title is a string; then it becomes `title + " - " + ", ".join(names)` |
| Plugin.AnnotateExtends | myanonymouse-qbittorrent-plugin.py:145-155 | a string title is only ever extended: the result starts with the original title |
| Plugin.PubDate | myanonymouse-qbittorrent-plugin.py:157-170 | "-1" stays "-1"; text with neither `T` nor `-` passes through unchanged; otherwise the ISO timestamp of the text with `Z` replaced by `+00:00`, and "-1" when that conversion raises |
| Sizes.FormatSizeBytes | myanonymouse-qbittorrent-plugin.py:191-207 | "0 B" exactly when `str(v)` is not all digits or denotes zero; a scaled size exactly when it denotes 1..1024⁵−1, with unit index ⌊log₁₀₂₄ n⌋ and whole part n / 1024^unit, which lies in 1..1023; the raw text from 1024⁵ on, where the unit index overruns the table |
| Sizes.Log1024 | myanonymouse-qbittorrent-plugin.py:202 | the unit index k satisfies 1024ᵏ ≤ n < 1024ᵏ⁺¹ |
| Sizes.Log1024Unique | myanonymouse-qbittorrent-plugin.py:202 | that bracket determines the index: any k with 1024ᵏ ≤ n < 1024ᵏ⁺¹ is the index |
| Sizes.FormatSize | mam.py:178-191 | zero prints "0 B"; otherwise no result exactly when `float(n)` overflows; else the unit is 0 below 1024, else the largest power of 1024 not above n, capped at "TB", and the whole part is n divided by that power |
| Sizes.FormatSizeLoop | mam.py:180-191 | the divide-by-1024 loop computes exactly `FormatSize` |
| Mam.CategoryCodesOf | mam.py:21-31 | `["14"]`, `["15"]` and `["16"]` each if and only if the tag is books, music and tv respectively; `["0"]` for every other tag, known or not (the `.get(cat, ['0'])` default of line 52) |
| Mam.PageOffset | mam.py:89-93 | page k's `startNumber` is a digit string denoting k·100 |
| Mam.PageRequestsDiffer | mam.py:92-93 | two different pages never send the same request |
| Mam.ProcessResult | mam.py:134-176 | a record exactly when the element is an object, its title a string, `int(size)` succeeds and `float` of it does not overflow; the record is `RecordOf` the fields, title and formatted size |
| Mam.RecordOf | mam.py:159-169 | the record carries the site URL and the formatted size unchanged |
| Mam.RecordName | mam.py:137 | the name is a slice of the title with only whitespace cut away before and after it, and neither starts nor ends with whitespace |
| Mam.RecordCounts | mam.py:139-165 | missing seeders or leechers print "0"; integer counts read back with `int()` as themselves |
| Mam.RecordDate | mam.py:156-168 | the date column reads back with `int()` as the value `_parse_date` returned, and is "-1" when `added` is missing |
| Mam.RecordCanonicalDate | mam.py:155-168 | an `added` value in "YYYY-MM-DD HH:MM:SS" form of a valid date prints the host's timestamp of that date |
| Mam.RecordLinks | mam.py:145-153 | the link names the hash exactly when `dl` is truthy and the torrent id otherwise; the detail link names the id |
| Mam.Pages | mam.py:92-115 | the pages are requested in order from the given page, the k-th request being the one for page page+k; at least one is requested below the limit and none past it; the records are those of the pages requested |
| Mam.PagesStep | mam.py:92-115 | one turn: the page is requested and the later pages follow exactly when the continue rule says so |
| Mam.PagesStop | mam.py:96-120 | every page but the last went on, and the last stopped the loop unless the three-page limit was reached |
| Mam.Search | mam.py:39-125 | 1 to 3 requests, the k-th being exactly page k's request (the search URL, the fixed headers and body fields, the unquoted query, the tag's category codes and page k's offset); the loop goes on after a falsy body or a full page of 100 and stops after a missing or empty `data`, a short page, or any exception (see Findings); the records are those of the pages requested |
| Mam.SearchOffsets | mam.py:49-93 | page k of a search carries the unquoted query, the tag's category codes and `startNumber` equal to `str(k·100)`, a digit string denoting k·100 |
| Mam.PagedRequests | mam.py:49-93 | any run of requests for pages 0, 1, … carries the query, the category codes and, for page k, the offset `str(k·100)` |
| Mam.SearchPages | mam.py:92-120 | for any way of processing elements and any continue rule: 1 to 3 requests, the k-th being page k's request, every page but the last went on and the last stopped the loop unless the limit was reached, and the records are those of the pages requested |
| Mam.SearchIntended | mam.py:117-120 | the same loop with the inner handler's `continue` reached, so a page that raises is skipped |
| Mam.FullPagesThenShort | mam.py:106-115 | two full pages and a short one give three requests and the three lists' records in order |
| Mam.ThreePages | mam.py:106-115 | the same, stated for the loop itself from page 0 and any request for each page |
| Mam.LastTwoPages | mam.py:110-115 | from page 1, a full page then a short one give those two requests and their records in order |
| Mam.FullPage | mam.py:110-115 | a full page prints its records and the loop goes on to the next page |
| Mam.ShortPage | mam.py:110-115 | a short page prints its records and ends the loop |
| Mam.EmptyFirstPage | mam.py:106-107 | an empty first `data` list ends the search after one request with nothing printed |
| Mam.AllBodiesEmpty | mam.py:100-101 | when every body is falsy, all three pages are requested and nothing is printed |
| Mam.NoBodyPages | mam.py:100-101 | the loop itself from any page: when every reply from there is falsy, every remaining page is requested and nothing is printed |
| Mam.RaisedPageEndsSearch | mam.py:117-125 | as written, a first page that raises ends the search after one request with nothing printed |
| Mam.IntendedSkipsRaisedPage | mam.py:117-120 | as intended, a first page that raises is followed by a request for page 1 |
| Dates.Strptime | mam.py:201 | an accepted date has year ≤ 9999, month 1..12, day 1..31, hour ≤ 23, minute ≤ 59, second ≤ 61 |
| Dates.StrptimeAccepts | mam.py:199-201 | every text made of a four-digit year, one- or two-digit fields in range (the day may also be a space and a digit), and a run of whitespace between date and time is accepted and read as the numbers it spells |
| Dates.StrptimeShapes | mam.py:199-201 | `strptime` accepts a text if and only if it is built from such field texts |
| Dates.MalformedDate | mam.py:193-204 | a string of any other shape makes `_parse_date` return -1 |
| Dates.ParseDate | mam.py:193-204 | -1 for a falsy or non-string value and for text `strptime` refuses; any other result comes from a valid date `strptime` read and is the host's timestamp of it |
| Dates.CanonicalRoundTrip | mam.py:199-201 | reading back a date printed as "YYYY-MM-DD HH:MM:SS" gives that date |
| Dates.ParseCanonical | mam.py:193-204 | for a valid date so printed, `_parse_date` is the host's timestamp, and -1 when that conversion raises |
| Dates.ParseDateOf | mam.py:199-204 | any text `strptime` reads as a valid date comes down to the host's timestamp of it |
| Api.DownloadLinkRoundTrip | mam.py:146-150 | the two download-link forms never collide: the link reads back as the hash when `dl` is truthy and as the id otherwise |
| Api.DescLinkInjective | mam.py:153 | the detail link determines the torrent id |
| Api.Collect | myanonymouse-qbittorrent-plugin.py:109-111 | at most one record per element, and every record is the result of processing some element |
| Api.CollectAppend | mam.py:110-111 | processing two lists one after the other prints the two outputs one after the other |
| Api.CollectOne | myanonymouse-qbittorrent-plugin.py:110-111 | one element prints one record exactly when processing it succeeds |
| Api.CollectAllSucceed | myanonymouse-qbittorrent-plugin.py:110-111 | when no element raises, the i-th record is the i-th element's |
| Builtins.PyIntOfTextAcceptsDigits | myanonymouse-qbittorrent-plugin.py:196 | `int()` of an all-digit string is the number it denotes |
| Builtins.IntTextRoundTrip | mam.py:164-168 | `int(str(i)) == i` for every integer |
| Builtins.IntRefusesSeparators | mam.py:138 | `int()` refuses any text containing U+001C..U+001F, although `str.strip` counts those as whitespace, so such a size skips the torrent |
| Builtins.StripSpec | mam.py:137 | `strip()` keeps a slice with only whitespace before and after it and none at its ends |
| Builtins.NatToStringRoundTrip | mam.py:93 | `str(n)` of a natural number reads back as n |

## Left out

- Sizes.FormatSizeBytes: only ASCII digits are digits. The source's `str.isdigit()` also accepts characters such as "²", for which `int()` then raises and the raw text is returned; the model prints "0 B" for them.
- Sizes.FormatSizeBytes: the unit index is the exact ⌊log₁₀₂₄ n⌋. The source computes it with the float `math.log(n, 1024)`, which for some counts just below a power of 1024 rounds up. Just below 1024⁵ that gives index 5, the `IndexError` is caught and the raw text returned. The `round(x, 2)` rendering is kept only as its whole part and the style tag.
- Mam.ProcessResult: `int()` is modelled for ASCII digits only. CPython also reads other decimal digits ("٣" is 3), so such a torrent is printed by the source and skipped by the model.
- Plugin.ParseAndPrint: field values are JSON null, booleans, integers and strings. Floats, lists and objects as field values are not modelled: `"size": 1536.0` prints "0 B" in the source, and `str()` of a list or dict is not modelled.
- Mam.ProcessResult: float field values are not modelled either: `int(1536.0)` is 1536 in the source.
- Sizes.FormatSize: the `:.1f` rendering is kept as the whole part of the quotient and the style tag. Rounding to one decimal can print a number one higher, such as "1024.0 KB" for 1048575 bytes.
- Dates.Strptime: `\d` in the pattern `strptime` builds also matches non-ASCII decimal digits; the model reads ASCII digits only and rejects those dates.
- Builtins.PyIntOfText: no digit-count limit. Python 3.11 and later refuse `int()` of more than 4300 digits. For counts that large the source and the model agree anyway, because the model's `float` overflow or the size table's overrun also rejects them. They differ only for text padded with leading zeros past that length.
- Host calls: `retrieve_url`, `json.dumps` and `json.loads`, `unquote_plus`, `base64`, `datetime.fromisoformat`, `datetime.timestamp` and the local time zone are parameters. Their behaviour is not modelled.
- Request serialisation: the body is kept as a structured value, not as its JSON text, and its UTF-8 encoding is not modelled.
- Messages written to stderr, and `prettyPrinter`'s own formatting, are not modelled. Printing is the sequence of records a search returns.
- `download_torrent` in both scripts and the plugin's module-level `search` entry point are not modelled. Each only hands its argument on to a host call.
- JSON objects are modelled as maps, so duplicate keys are not represented. The author field's object keeps only its values, in order.

## Findings

| source | as written | input that shows it | evidently intended | confidence | as-written member | corrected member |
|---|---|---|---|---|---|---|
| mam.py:117-124 | the inner handler's `print(..., file=sys.stderr)` names `sys`, which the `import sys` at line 124 makes a local of `search` that is still unbound there; the `UnboundLocalError` leaves the page loop for the outer handler, so any exception on one page ends the whole search | a first page whose request or JSON decoding raises, followed by pages that would have results | log the error and `continue` with the next page, as line 120 says | not executed | Mam.RaisedPageEndsSearch (via Mam.Search and Mam.NextPage) | Mam.IntendedSkipsRaisedPage (via Mam.SearchIntended and Mam.NextPageIntended) |

=== FILE: api.dfy ===
/** What both scripts share: the vendor's JSON search request and reply, the
    torrent links they build, and the 8-field record handed to the host's
    printer. The host's `retrieve_url` together with `json.loads` is a
    transport from `Request` to `Reply`; the printer is the list of records
    emitted, in order. */
module Api {
  import opened Builtins
  import opened Sizes

  const SiteUrl: string := "https://www.myanonamouse.net"
  const SearchUrl: string := SiteUrl + "/tor/js/loadSearchJSONbasic.php"
  const DownloadBase: string := SiteUrl + "/tor/download.php"
  const DetailBase: string := SiteUrl + "/t/"

  /** The `tor` object of the request body, plus its `thumbnail` flag. */
  datatype SearchBody = SearchBody(
    text: string,
    srchIn: seq<string>,
    searchType: string,
    searchIn: string,
    cat: seq<string>,
    browseFlagsHideVsShow: string,
    startDate: string,
    endDate: string,
    hash: string,
    sortType: string,
    startNumber: string,
    thumbnail: string)

  datatype Request = Request(url: string, body: SearchBody, headers: map<string, string>)

  /** One element of the reply's `data` list: a JSON object (its keys and
      scalar values) or anything else. */
  datatype Item = Torrent(fields: map<string, Scalar>) | Foreign

  /** The value under `data`: a list, a non-list Python can take the length
      of (an object or a string, with its length), or a number, boolean or
      null (with its truthiness). */
  datatype DataValue = Items(items: seq<Item>) | Sized(length: nat) | Unsized(truthy: bool)

  /** What a request yields: a falsy body; an exception before the items are
      reached (from the transport, from `json.loads`, or from looking `data`
      up in a document that is neither an object nor a list); or a decoded
      document with its `data` value (`None` when the document has no `data`
      key). */
  datatype Reply = NoBody | Raised | Body(data: Option<DataValue>)

  /** The dictionary passed to `prettyPrinter`. */
  datatype Record = Record(
    link: string,
    name: Scalar,
    size: SizeText,
    seeds: string,
    leech: string,
    engineUrl: string,
    descLink: string,
    pubDate: string)

  /** What one search does: the requests it sends, in order, and the records
      it prints, in order. */
  datatype Outcome = Outcome(requests: seq<Request>, records: seq<Record>)

  /** `d.get(key, default)`. */
  function Get(fields: map<string, Scalar>, key: string, default: Scalar): Scalar {
    if key in fields then fields[key] else default
  }

  // ---------------------------------------------------------------------------
  // Links

  /** The download link: the hash path when `dl` is truthy, else the `?tid=` form. */
  function DownloadLink(dl: Scalar, id: string): string {
    if Truthy(dl) then DownloadBase + "/" + PyStr(dl) else DownloadBase + "?tid=" + id
  }

  function DescLink(id: string): string {
    DetailBase + id
  }

  /** What a download link points at. */
  datatype LinkTarget = ByHash(hash: string) | ById(id: string) | Unknown

  /** Reads a download link back. */
  function ParseDownloadLink(link: string): LinkTarget {
    var n := |DownloadBase|;
    if |link| < n || link[..n] != DownloadBase then Unknown else ParseLinkTail(link[n..])
  }

  /** What follows the download path: `/` and a hash, or `?tid=` and an id. */
  function ParseLinkTail(tail: string): LinkTarget {
    if |tail| > 0 && tail[0] == '/' then ByHash(tail[1..])
    else if |tail| >= 5 && tail[..5] == "?tid=" then ById(tail[5..])
    else Unknown
  }

  /** The two link forms never collide: the link names the hash exactly when
      `dl` is truthy, and otherwise the torrent id, and either can be read
      back from the link. */
  lemma DownloadLinkRoundTrip(dl: Scalar, id: string)
    ensures Truthy(dl) ==> ParseDownloadLink(DownloadLink(dl, id)) == ByHash(PyStr(dl))
    ensures !Truthy(dl) ==> ParseDownloadLink(DownloadLink(dl, id)) == ById(id)
  {
    var tail := if Truthy(dl) then "/" + PyStr(dl) else "?tid=" + id;
    assert DownloadLink(dl, id) == DownloadBase + tail;
    ConcatParts(DownloadBase, tail);
    assert ParseDownloadLink(DownloadLink(dl, id)) == ParseLinkTail(tail);
    if Truthy(dl) {
      assert tail[1..] == PyStr(dl);
    } else {
      ConcatParts("?tid=", id);
    }
  }

  /** The detail link determines the torrent id. */
  lemma DescLinkInjective(a: string, b: string)
    requires DescLink(a) == DescLink(b)
    ensures a == b
  {
    assert a == DescLink(a)[|DetailBase|..];
    assert b == DescLink(b)[|DetailBase|..];
  }

  // ---------------------------------------------------------------------------
  // Processing a data list

  /** The records printed for a data list: every element is processed once,
      in list order; an element whose processing raises prints nothing. */
  function Collect(items: seq<Item>, process: Item -> Option<Record>): (out: seq<Record>)
    ensures |out| <= |items|
    ensures forall r :: r in out ==> exists i :: 0 <= i < |items| && process(items[i]) == Some(r)
    decreases |items|
  {
    if |items| == 0 then []
    else
      var rest := Collect(items[1..], process);
      assert forall r :: r in rest ==> exists i :: 0 <= i < |items| && process(items[i]) == Some(r) by {
        forall r | r in rest ensures exists i :: 0 <= i < |items| && process(items[i]) == Some(r) {
          var j :| 0 <= j < |items[1..]| && process(items[1..][j]) == Some(r);
          assert process(items[j + 1]) == Some(r);
        }
      }
      match process(items[0])
      case Some(r) => [r] + rest
      case None => rest
  }

  /** Processing two lists one after the other prints the two outputs one
      after the other. */
  lemma {:induction false} CollectAppend(a: seq<Item>, b: seq<Item>, process: Item -> Option<Record>)
    ensures Collect(a + b, process) == Collect(a, process) + Collect(b, process)
    decreases |a|
  {
    if |a| == 0 {
      assert a + b == b;
    } else {
      assert (a + b)[1..] == a[1..] + b;
      assert (a + b)[0] == a[0];
      CollectAppend(a[1..], b, process);
    }
  }

  /** One element prints one record exactly when processing it succeeds. */
  lemma CollectOne(x: Item, process: Item -> Option<Record>)
    ensures Collect([x], process) == (match process(x) case Some(r) => [r] case None => [])
  {
    assert [x][1..] == [];
  }

  /** When no element raises, the output has one record per element, in order. */
  lemma {:induction false} CollectAllSucceed(items: seq<Item>, process: Item -> Option<Record>)
    requires forall i :: 0 <= i < |items| ==> process(items[i]).Some?
    ensures |Collect(items, process)| == |items|
    ensures forall i :: 0 <= i < |items| ==> Collect(items, process)[i] == process(items[i]).value
    decreases |items|
  {
    if |items| > 0 {
      assert forall i :: 0 <= i < |items[1..]| ==> items[1..][i] == items[i + 1];
      CollectAllSucceed(items[1..], process);
    }
  }
}

=== FILE: builtins.dfy ===
/** The few Python built-ins both search scripts lean on: truthiness, `str()`
    of a decoded JSON scalar, `str.isdigit`, `str.strip` and `int()` of text.
    Only ASCII digits are modelled. Two whitespace sets are kept apart: the one
    `str.isspace` and `str.strip` use, and the narrower one `int()` skips. */
module Builtins {

  datatype Option<T> = None | Some(value: T) {
    predicate IsFailure() { None? }

    function PropagateFailure<U>(): Option<U>
      requires None?
    {
      None
    }

    function Extract(): T
      requires Some?
    {
      value
    }
  }

  /** A JSON scalar as `json.loads` hands it to Python (floats are not modelled). */
  datatype Scalar = Null | Bool(b: bool) | Int(i: int) | Str(s: string)

  /** A decoded JSON document. An object keeps only its values, in insertion order. */
  datatype Json = Atom(a: Scalar) | Array(elems: seq<Json>) | Object(values: seq<Json>)

  /** Python truthiness of a scalar: `None`, `False`, `0` and `''` are false. */
  predicate Truthy(v: Scalar) {
    match v
    case Null => false
    case Bool(b) => b
    case Int(i) => i != 0
    case Str(s) => s != ""
  }

  function Min(a: int, b: int): int { if a < b then a else b }

  /** `pow(b, e)` for natural numbers. */
  function Pow(b: nat, e: nat): (r: nat)
    ensures b >= 1 ==> r >= 1
  {
    if e == 0 then 1 else b * Pow(b, e - 1)
  }

  lemma {:induction false} PowMonotone(b: nat, i: nat, j: nat)
    requires b >= 1 && i <= j
    ensures Pow(b, i) <= Pow(b, j)
    decreases j - i
  {
    if i < j {
      PowMonotone(b, i, j - 1);
      PowStep(b, j - 1);
    }
  }

  /** Each further power of a positive base is at least the one before. */
  lemma PowStep(b: nat, e: nat)
    requires b >= 1
    ensures Pow(b, e) <= Pow(b, e + 1)
  {
    var p := Pow(b, e);
    assert Pow(b, e + 1) == b * p;
    Grows(b - 1, p);
  }

  lemma Grows(c: nat, p: nat)
    ensures p <= (c + 1) * p
  {
    assert (c + 1) * p == c * p + p;
  }

  // ---------------------------------------------------------------------------
  // Decimal digits

  predicate IsDigit(c: char) { '0' <= c <= '9' }

  predicate AllDigits(s: string) {
    forall i :: 0 <= i < |s| ==> IsDigit(s[i])
  }

  /** `str.isdigit()` on ASCII text: non-empty and made of digits only. */
  predicate IsDigitString(s: string) {
    |s| > 0 && AllDigits(s)
  }

  function DigitValue(c: char): nat
    requires IsDigit(c)
  {
    (c as int) - ('0' as int)
  }

  function DigitChar(d: nat): (c: char)
    requires d < 10
    ensures IsDigit(c) && DigitValue(c) == d
  {
    (('0' as int) + d) as char
  }

  /** The number a string of decimal digits denotes (leading zeros allowed). */
  function DigitsValue(s: string): nat
    requires AllDigits(s)
    decreases |s|
  {
    if |s| == 0 then 0 else 10 * DigitsValue(s[..|s| - 1]) + DigitValue(s[|s| - 1])
  }

  /** `str(n)` for a non-negative integer: shortest decimal text, no leading zero. */
  function NatToString(n: nat): (r: string)
    ensures IsDigitString(r)
    ensures r[0] == '0' ==> n == 0 && r == "0"
    decreases n
  {
    if n < 10 then [DigitChar(n)] else NatToString(n / 10) + [DigitChar(n % 10)]
  }

  /** `str(i)` for any integer. */
  function IntToString(i: int): (r: string)
    ensures |r| > 0
    ensures i < 0 <==> r[0] == '-'
  {
    if i < 0 then "-" + NatToString(-i) else NatToString(i)
  }

  lemma {:induction false} NatToStringRoundTrip(n: nat)
    ensures DigitsValue(NatToString(n)) == n
    decreases n
  {
    var r := NatToString(n);
    if n >= 10 {
      NatToStringRoundTrip(n / 10);
      assert r[..|r| - 1] == NatToString(n / 10);
    }
  }

  /** Two numbers print alike only when they are equal. */
  lemma NatToStringInjective(m: nat, n: nat)
    requires NatToString(m) == NatToString(n)
    ensures m == n
  {
    NatToStringRoundTrip(m);
    NatToStringRoundTrip(n);
  }

  /** `str(v)` of a decoded JSON scalar, as Python prints it. */
  function PyStr(v: Scalar): (r: string)
    ensures v.Str? ==> r == v.s
    ensures v.Int? ==> r == IntToString(v.i)
  {
    match v
    case Null => "None"
    case Bool(b) => if b then "True" else "False"
    case Int(i) => IntToString(i)
    case Str(s) => s
  }

  // ---------------------------------------------------------------------------
  // Whitespace and str.strip()

  /** Python's `str.isspace` for one character (also the set `\s` matches). */
  predicate IsSpace(c: char) {
    || ('\U{0009}' <= c <= '\U{000D}') || ('\U{001C}' <= c <= '\U{0020}')
    || c == '\U{0085}' || c == '\U{00A0}' || c == '\U{1680}'
    || ('\U{2000}' <= c <= '\U{200A}') || c == '\U{2028}' || c == '\U{2029}'
    || c == '\U{202F}' || c == '\U{205F}' || c == '\U{3000}'
  }

  /** The whitespace `int()` skips around its digits. It first maps every
      non-ASCII space to ' ' and leaves ASCII alone, then skips only the C
      blanks " \t\n\v\f\r"; so the separators U+001C..U+001F, which
      `str.isspace` counts, are not whitespace to `int()`. */
  predicate IsIntSpace(c: char) {
    IsSpace(c) && !('\U{001C}' <= c <= '\U{001F}')
  }

  /** Which whitespace set a strip removes. */
  datatype Spaces = StrSpaces | IntSpaces

  predicate IsBlank(ws: Spaces, c: char) {
    match ws
    case StrSpaces => IsSpace(c)
    case IntSpaces => IsIntSpace(c)
  }

  /** `s.lstrip()`: the longest suffix of `s` that does not start with whitespace. */
  function StripLeft(ws: Spaces, s: string): (r: string)
    ensures |r| <= |s| && forall k :: 0 <= k < |r| ==> r[k] == s[|s| - |r| + k]
    ensures forall k :: 0 <= k < |s| - |r| ==> IsBlank(ws, s[k])
    ensures |r| > 0 ==> !IsBlank(ws, r[0])
    decreases |s|
  {
    if |s| > 0 && IsBlank(ws, s[0]) then StripLeft(ws, s[1..]) else s
  }

  /** `s.rstrip()`: the longest prefix of `s` that does not end with whitespace. */
  function StripRight(ws: Spaces, s: string): (r: string)
    ensures |r| <= |s| && forall k :: 0 <= k < |r| ==> r[k] == s[k]
    ensures forall k :: |r| <= k < |s| ==> IsBlank(ws, s[k])
    ensures |r| > 0 ==> !IsBlank(ws, r[|r| - 1])
    decreases |s|
  {
    if |s| > 0 && IsBlank(ws, s[|s| - 1]) then StripRight(ws, s[..|s| - 1]) else s
  }

  /** `s.strip()` for the whitespace set `ws`. */
  function Strip(ws: Spaces, s: string): (r: string)
  {
    StripRight(ws, StripLeft(ws, s))
  }

  /** `r` is what stripping keeps of `s` when the leading whitespace ends at
      `i`: the slice of `s` from `i`, with only whitespace before and after
      it, neither starting nor ending with whitespace itself. */
  predicate StrippedFrom(ws: Spaces, r: string, s: string, i: nat) {
    && i + |r| <= |s| && (forall k :: 0 <= k < |r| ==> r[k] == s[i + k])
    && (forall k :: 0 <= k < i ==> IsBlank(ws, s[k]))
    && (forall k :: i + |r| <= k < |s| ==> IsBlank(ws, s[k]))
    && (|r| > 0 ==> !IsBlank(ws, r[0]) && !IsBlank(ws, r[|r| - 1]))
  }

  /** Stripping cuts away the whitespace at both ends and nothing else. */
  lemma StripSpec(ws: Spaces, s: string)
    ensures StrippedFrom(ws, Strip(ws, s), s, |s| - |StripLeft(ws, s)|)
  {
    var l := StripLeft(ws, s);
    StrippedParts(ws, s, l, Strip(ws, s));
  }

  /** When `l` is `s` with its leading whitespace cut and `r` is `l` with its
      trailing whitespace cut, `r` is what stripping keeps of `s`. */
  lemma StrippedParts(ws: Spaces, s: string, l: string, r: string)
    requires |l| <= |s| && forall k :: 0 <= k < |l| ==> l[k] == s[|s| - |l| + k]
    requires forall k :: 0 <= k < |s| - |l| ==> IsBlank(ws, s[k])
    requires |l| > 0 ==> !IsBlank(ws, l[0])
    requires |r| <= |l| && forall k :: 0 <= k < |r| ==> r[k] == l[k]
    requires forall k :: |r| <= k < |l| ==> IsBlank(ws, l[k])
    requires |r| > 0 ==> !IsBlank(ws, r[|r| - 1])
    ensures StrippedFrom(ws, r, s, |s| - |l|)
  {
    var i := |s| - |l|;
    forall k | 0 <= k < |r| ensures r[k] == s[i + k] {
      assert r[k] == l[k];
    }
    forall k | i + |r| <= k < |s| ensures IsBlank(ws, s[k]) {
      assert s[k] == l[k - i];
    }
    if |r| > 0 {
      assert r[0] == l[0];
    }
  }

  /** Text that neither starts nor ends with whitespace is left alone. */
  lemma StripKeeps(ws: Spaces, s: string)
    requires |s| > 0 && !IsBlank(ws, s[0]) && !IsBlank(ws, s[|s| - 1])
    ensures Strip(ws, s) == s
  {
    assert StripLeft(ws, s) == s;
  }

  // ---------------------------------------------------------------------------
  // int() of text

  /** Digits in groups separated by single underscores, as `int()` accepts them. */
  predicate DigitGroups(b: string) {
    && |b| > 0 && IsDigit(b[0]) && IsDigit(b[|b| - 1])
    && (forall i :: 0 <= i < |b| ==> IsDigit(b[i]) || b[i] == '_')
    && (forall i :: 0 <= i < |b| - 1 && b[i] == '_' ==> b[i + 1] != '_')
  }

  function DropUnderscores(b: string): (r: string)
    requires forall i :: 0 <= i < |b| ==> IsDigit(b[i]) || b[i] == '_'
    ensures AllDigits(r)
    ensures AllDigits(b) ==> r == b
    decreases |b|
  {
    if |b| == 0 then ""
    else if b[0] == '_' then DropUnderscores(b[1..])
    else [b[0]] + DropUnderscores(b[1..])
  }

  /** `int(s)` for a `str` argument in base 10: surrounding whitespace of
      the set `int()` skips, one optional sign, digit groups joined by single
      underscores; `None` where Python raises `ValueError`. */
  function PyIntOfText(s: string): (r: Option<int>)
  {
    SignedDigits(Strip(IntSpaces, s))
  }

  /** The stripped text `int()` reads: one optional sign, then digit groups. */
  function SignedDigits(t: string): Option<int> {
    if |t| == 0 then None
    else if t[0] == '-' then
      (match UnsignedDigits(t[1..]) case Some(v) => Some(-(v as int)) case None => None)
    else if t[0] == '+' then
      (match UnsignedDigits(t[1..]) case Some(v) => Some(v as int) case None => None)
    else
      (match UnsignedDigits(t) case Some(v) => Some(v as int) case None => None)
  }

  /** Digit groups without a sign. */
  function UnsignedDigits(b: string): Option<nat> {
    if DigitGroups(b) then Some(DigitsValue(DropUnderscores(b))) else None
  }

  /** `int(v)` of a decoded JSON scalar; `None` where Python raises. */
  function PyInt(v: Scalar): Option<int>
  {
    match v
    case Null => None
    case Bool(b) => Some(if b then 1 else 0)
    case Int(i) => Some(i)
    case Str(s) => PyIntOfText(s)
  }

  lemma DigitStringGroups(s: string)
    requires IsDigitString(s)
    ensures DigitGroups(s) && DropUnderscores(s) == s
  {
  }

  /** `int()` reads a string of ASCII digits as the number it denotes. */
  lemma PyIntOfTextAcceptsDigits(s: string)
    requires IsDigitString(s)
    ensures PyIntOfText(s) == Some(DigitsValue(s))
  {
    assert IsDigit(s[0]) && IsDigit(s[|s| - 1]);
    StripKeeps(IntSpaces, s);
    assert s[0] != '-' && s[0] != '+';
    UnsignedOfDigits(s);
  }

  /** A character `int()` can read between the whitespace: a digit, an
      underscore or a sign. */
  predicate NumeralChar(c: char) {
    IsDigit(c) || c == '_' || c == '-' || c == '+'
  }

  lemma SignedDigitsChars(t: string)
    ensures SignedDigits(t).Some? ==> forall k :: 0 <= k < |t| ==> NumeralChar(t[k])
  {
    if SignedDigits(t).Some? {
      var signed := t[0] == '-' || t[0] == '+';
      var b := if signed then t[1..] else t;
      assert UnsignedDigits(b).Some?;
      forall k | 0 <= k < |t| ensures NumeralChar(t[k]) {
        if signed && k > 0 {
          assert t[k] == b[k - 1];
        }
      }
    }
  }

  /** Text `int()` accepts is made of its whitespace and numeral characters only. */
  lemma IntTextChars(s: string)
    ensures PyIntOfText(s).Some? ==>
      forall k :: 0 <= k < |s| ==> IsIntSpace(s[k]) || NumeralChar(s[k])
  {
    if PyIntOfText(s).Some? {
      var t := Strip(IntSpaces, s);
      var i := |s| - |StripLeft(IntSpaces, s)|;
      StripSpec(IntSpaces, s);
      SignedDigitsChars(t);
      forall k | 0 <= k < |s| ensures IsIntSpace(s[k]) || NumeralChar(s[k]) {
        StrippedCover(IntSpaces, t, s, i, k);
      }
    }
  }

  /** Each character of the original text is whitespace or lies in what was kept. */
  lemma StrippedCover(ws: Spaces, r: string, s: string, i: nat, k: nat)
    requires StrippedFrom(ws, r, s, i) && k < |s|
    ensures IsBlank(ws, s[k]) || (i <= k < i + |r| && s[k] == r[k - i])
  {
  }

  /** `int()` refuses any text holding one of the separators U+001C..U+001F,
      even though `str.strip` would have removed it from the ends. */
  lemma IntRefusesSeparators(s: string, j: nat)
    requires j < |s| && '\U{001C}' <= s[j] <= '\U{001F}'
    ensures PyIntOfText(s) == None
  {
    IntTextChars(s);
  }

  /** `int(str(i)) == i`. */
  lemma IntTextRoundTrip(i: int)
    ensures PyIntOfText(IntToString(i)) == Some(i)
  {
    if i >= 0 {
      NonNegativeRoundTrip(i);
    } else {
      NegativeRoundTrip(i);
    }
  }

  lemma NonNegativeRoundTrip(i: nat)
    ensures PyIntOfText(IntToString(i)) == Some(i)
  {
    var d := NatToString(i);
    assert IntToString(i) == d;
    PyIntOfTextAcceptsDigits(d);
    NatToStringRoundTrip(i);
  }

  lemma NegativeRoundTrip(i: int)
    requires i < 0
    ensures PyIntOfText(IntToString(i)) == Some(i)
  {
    var d := NatToString(-i);
    NatToStringRoundTrip(-i);
    NegativeText(d, -i);
    assert IntToString(i) == "-" + d;
  }

  /** `int()` reads a minus sign and the digits of `n` as `-n`. */
  lemma NegativeText(d: string, n: nat)
    requires IsDigitString(d) && DigitsValue(d) == n
    ensures PyIntOfText("-" + d) == Some(-(n as int))
  {
    var s := "-" + d;
    assert s[0] == '-';
    assert s[|s| - 1] == d[|d| - 1] && IsDigit(d[|d| - 1]);
    StripKeeps(IntSpaces, s);
    assert PyIntOfText(s) == SignedDigits(s);
    NegativeDigits(d, n);
  }

  lemma NegativeDigits(d: string, n: nat)
    requires IsDigitString(d) && DigitsValue(d) == n
    ensures SignedDigits("-" + d) == Some(-(n as int))
  {
    var s := "-" + d;
    assert s[0] == '-';
    assert s[1..] == d;
    UnsignedOfDigits(d);
  }

  lemma UnsignedOfDigits(d: string)
    requires IsDigitString(d)
    ensures UnsignedDigits(d) == Some(DigitsValue(d))
  {
    DigitStringGroups(d);
  }

  /** A string splits back into the two parts it was joined from. */
  lemma ConcatParts(a: string, b: string)
    ensures (a + b)[..|a|] == a && (a + b)[|a|..] == b
  {
  }

  // ---------------------------------------------------------------------------
  // Text helpers

  /** `sep.join(parts)`. */
  function Join(parts: seq<string>, sep: string): (r: string)
    ensures |parts| == 1 ==> r == parts[0]
    decreases |parts|
  {
    if |parts| == 0 then ""
    else if |parts| == 1 then parts[0]
    else parts[0] + sep + Join(parts[1..], sep)
  }

  predicate Contains(s: string, c: char) {
    exists i :: 0 <= i < |s| && s[i] == c
  }

  /** `s.replace(c, t)` for a one-character pattern. */
  function ReplaceChar(s: string, c: char, t: string): (r: string)
    ensures !Contains(s, c) ==> r == s
    decreases |s|
  {
    if |s| == 0 then ""
    else (if s[0] == c then t else [s[0]]) + ReplaceChar(s[1..], c, t)
  }
}

=== FILE: dates.dfy ===
/** Date acceptance in mam.py's `_parse_date`: `datetime.strptime(s,
    "%Y-%m-%d %H:%M:%S")` followed by the `datetime` range checks. The text is
    matched the way CPython's `_strptime` builds its pattern: `%Y` takes exactly
    four digits, `%m %d %H %M %S` take one or two, `%d` may also be a space and
    a non-zero digit, and the space in the format matches any run of
    whitespace. The whole string must be consumed. */
module Dates {
  import opened Builtins

  datatype DateTime = DateTime(year: nat, month: nat, day: nat, hour: nat, minute: nat, second: nat)

  /** A directive's value and the text after it. */
  datatype Field = Field(value: nat, rest: string)

  /** The length of the run of ASCII digits at the front of `s`. */
  function LeadingDigits(s: string): (k: nat)
    ensures k <= |s| && AllDigits(s[..k])
    ensures k < |s| ==> !IsDigit(s[k])
    decreases |s|
  {
    if |s| > 0 && IsDigit(s[0]) then
      var k := 1 + LeadingDigits(s[1..]);
      assert s[..k] == [s[0]] + s[1..][..k - 1];
      k
    else 0
  }

  /** The length of the run of whitespace at the front of `s`. */
  function LeadingSpaces(s: string): (k: nat)
    ensures k <= |s|
    ensures forall i :: 0 <= i < k ==> IsSpace(s[i])
    ensures k < |s| ==> !IsSpace(s[k])
    decreases |s|
  {
    if |s| > 0 && IsSpace(s[0]) then 1 + LeadingSpaces(s[1..]) else 0
  }

  /** `%Y`: exactly four digits. */
  function YearField(s: string): (r: Option<Field>)
    ensures r.Some? ==> r.value.value <= 9999
  {
    if |s| >= 4 && AllDigits(s[..4]) then
      assert DigitsValue(s[..4]) <= 9999 by { DigitsBound(s[..4]); }
      Some(Field(DigitsValue(s[..4]), s[4..]))
    else None
  }

  lemma {:induction false} DigitsBound(s: string)
    requires AllDigits(s)
    ensures DigitsValue(s) < Pow(10, |s|)
    decreases |s|
  {
    if |s| > 0 {
      DigitsBound(s[..|s| - 1]);
    }
  }

  /** `%m %d %H %M %S`: the digit run in front is one or two long and its
      value lies in `lo..hi`. The run must be taken whole, because a digit
      never follows these directives in the format. */
  function ShortField(s: string, lo: nat, hi: nat): (r: Option<Field>)
    ensures r.Some? ==> lo <= r.value.value <= hi
  {
    var k := LeadingDigits(s);
    if 1 <= k <= 2 && lo <= DigitsValue(s[..k]) <= hi then
      Some(Field(DigitsValue(s[..k]), s[k..]))
    else None
  }

  /** `%d`, whose pattern also admits a space followed by a non-zero digit. */
  function DayField(s: string): (r: Option<Field>)
    ensures r.Some? ==> 1 <= r.value.value <= 31
  {
    if |s| > 0 && s[0] == ' ' then
      if |s| >= 2 && '1' <= s[1] <= '9' then Some(Field(DigitValue(s[1]), s[2..])) else None
    else ShortField(s, 1, 31)
  }

  /** One literal character of the format. */
  function Char(s: string, c: char): Option<string> {
    if |s| > 0 && s[0] == c then Some(s[1..]) else None
  }

  /** The format's space: one or more whitespace characters. */
  function Blanks(s: string): Option<string> {
    var k := LeadingSpaces(s);
    if k >= 1 then Some(s[k..]) else None
  }

  /** `%H:%M:%S` to the end of the text. */
  function ClockTime(s: string): (r: Option<(nat, nat, nat)>)
    ensures r.Some? ==> r.value.0 <= 23 && r.value.1 <= 59 && r.value.2 <= 61
  {
    var h :- ShortField(s, 0, 23);
    var s1 :- Char(h.rest, ':');
    var mi :- ShortField(s1, 0, 59);
    var s2 :- Char(mi.rest, ':');
    var sec :- ShortField(s2, 0, 61);
    if sec.rest != "" then None else Some((h.value, mi.value, sec.value))
  }

  /** The date part of a text and what follows the blanks after it. */
  datatype Calendar = Calendar(year: nat, month: nat, day: nat, rest: string)

  /** `%Y-%m-%d` and the whitespace run the format's space matches. */
  function CalendarDate(s: string): (r: Option<Calendar>)
    ensures r.Some? ==> r.value.year <= 9999 && 1 <= r.value.month <= 12 && 1 <= r.value.day <= 31
  {
    var y :- YearField(s);
    var s1 :- Char(y.rest, '-');
    var m :- ShortField(s1, 1, 12);
    var s2 :- Char(m.rest, '-');
    var d :- DayField(s2);
    var s3 :- Blanks(d.rest);
    Some(Calendar(y.value, m.value, d.value, s3))
  }

  /** The fields `strptime` reads from `s`, or `None` where it raises
      `ValueError` for a mismatch or for unconverted text at the end. */
  function Strptime(s: string): (r: Option<DateTime>)
    ensures r.Some? ==>
      && r.value.year <= 9999 && 1 <= r.value.month <= 12 && 1 <= r.value.day <= 31
      && r.value.hour <= 23 && r.value.minute <= 59 && r.value.second <= 61
  {
    var c :- CalendarDate(s);
    var t :- ClockTime(c.rest);
    Some(DateTime(c.year, c.month, c.day, t.0, t.1, t.2))
  }

  predicate IsLeapYear(y: nat) {
    y % 4 == 0 && (y % 100 != 0 || y % 400 == 0)
  }

  function DaysInMonth(y: nat, m: nat): nat
    requires 1 <= m <= 12
  {
    if m == 2 then (if IsLeapYear(y) then 29 else 28)
    else if m == 4 || m == 6 || m == 9 || m == 11 then 30
    else 31
  }

  /** What `datetime(...)` accepts: year 1..9999, a real day of the month,
      second 0..59 (so the 60 and 61 `%S` lets through are refused). */
  predicate ValidDateTime(dt: DateTime) {
    && 1 <= dt.year <= 9999 && 1 <= dt.month <= 12
    && 1 <= dt.day <= DaysInMonth(dt.year, dt.month)
    && dt.hour <= 23 && dt.minute <= 59 && dt.second <= 59
  }

  /** `_parse_date(v)`: -1 for a falsy value; otherwise the timestamp of the
      date `strptime` reads, -1 for anything it rejects (a non-string raises
      `TypeError`, which is caught too). `timestamp` is the host's local-time
      conversion, truncated to an integer, `None` where it raises. */
  function ParseDate(v: Scalar, timestamp: DateTime -> Option<int>): (r: int)
    ensures !Truthy(v) || !v.Str? ==> r == -1
    ensures v.Str? && Strptime(v.s).None? ==> r == -1
    ensures r != -1 ==>
      && v.Str? && Strptime(v.s).Some? && ValidDateTime(Strptime(v.s).value)
      && timestamp(Strptime(v.s).value) == Some(r)
  {
    if !Truthy(v) then -1
    else match v
      case Str(s) =>
        (match Strptime(s)
         case None => -1
         case Some(dt) =>
           if !ValidDateTime(dt) then -1
           else match timestamp(dt)
             case None => -1
             case Some(t) => t)
      case _ => -1
  }

  // ---------------------------------------------------------------------------
  // Which texts are accepted

  lemma {:induction false} LeadingDigitsOf(f: string, rest: string)
    requires AllDigits(f)
    requires |rest| > 0 ==> !IsDigit(rest[0])
    ensures LeadingDigits(f + rest) == |f|
    decreases |f|
  {
    if |f| > 0 {
      assert (f + rest)[1..] == f[1..] + rest;
      LeadingDigitsOf(f[1..], rest);
    } else {
      assert f + rest == rest;
    }
  }

  lemma {:induction false} LeadingSpacesOf(w: string, rest: string)
    requires forall i :: 0 <= i < |w| ==> IsSpace(w[i])
    requires |rest| > 0 ==> !IsSpace(rest[0])
    ensures LeadingSpaces(w + rest) == |w|
    decreases |w|
  {
    if |w| > 0 {
      assert (w + rest)[1..] == w[1..] + rest;
      LeadingSpacesOf(w[1..], rest);
    } else {
      assert w + rest == rest;
    }
  }

  /** A one- or two-digit field in range is read whole, whatever follows it
      as long as that does not start with a digit. */
  lemma ShortFieldOf(f: string, rest: string, lo: nat, hi: nat)
    requires IsDigitString(f) && |f| <= 2 && lo <= DigitsValue(f) <= hi
    requires |rest| > 0 ==> !IsDigit(rest[0])
    ensures ShortField(f + rest, lo, hi) == Some(Field(DigitsValue(f), rest))
  {
    LeadingDigitsOf(f, rest);
    assert (f + rest)[..|f|] == f;
    assert (f + rest)[|f|..] == rest;
  }

  predicate ShortText(f: string, lo: nat, hi: nat) {
    IsDigitString(f) && |f| <= 2 && lo <= DigitsValue(f) <= hi
  }

  /** `H:M:S` from its three field texts. */
  function ClockText(fh: string, fmi: string, fs: string): string {
    fh + (":" + (fmi + (":" + fs)))
  }

  /** `Y-M-D<blanks>H:M:S` from its field texts. */
  function DateText(fy: string, fm: string, fd: string, ws: string, fh: string, fmi: string, fs: string): string {
    fy + ("-" + (fm + ("-" + (fd + (ws + ClockText(fh, fmi, fs))))))
  }

  lemma ClockAccepts(fh: string, fmi: string, fs: string)
    requires ShortText(fh, 0, 23) && ShortText(fmi, 0, 59) && ShortText(fs, 0, 61)
    ensures ClockTime(ClockText(fh, fmi, fs)) == Some((DigitsValue(fh), DigitsValue(fmi), DigitsValue(fs)))
  {
    var t3 := ":" + fs;
    var t2 := fmi + t3;
    var t1 := ":" + t2;
    ShortFieldOf(fh, t1, 0, 23);
    assert Char(t1, ':') == Some(t2);
    ShortFieldOf(fmi, t3, 0, 59);
    assert Char(t3, ':') == Some(fs);
    ShortFieldOf(fs, "", 0, 61);
    assert fs + "" == fs;
  }

  lemma YearOf(fy: string, rest: string)
    requires IsDigitString(fy) && |fy| == 4
    ensures YearField(fy + rest) == Some(Field(DigitsValue(fy), rest))
  {
    assert (fy + rest)[..4] == fy;
    assert (fy + rest)[4..] == rest;
  }

  lemma BlanksOf(ws: string, rest: string)
    requires |ws| > 0 && forall i :: 0 <= i < |ws| ==> IsSpace(ws[i])
    requires |rest| > 0 ==> !IsSpace(rest[0])
    ensures Blanks(ws + rest) == Some(rest)
  {
    LeadingSpacesOf(ws, rest);
    assert (ws + rest)[|ws|..] == rest;
  }

  /** The texts `%d` reads: one or two digits in 1..31, or a space and a
      non-zero digit. */
  predicate DayText(fd: string) {
    ShortText(fd, 1, 31) || (|fd| == 2 && fd[0] == ' ' && '1' <= fd[1] <= '9')
  }

  /** The day a `%d` text names. */
  function DayValue(fd: string): nat
    requires DayText(fd)
  {
    if fd[0] == ' ' then DigitValue(fd[1]) else DigitsValue(fd)
  }

  /** The field texts of a date `strptime` reads: four digits for the year,
      a month, a day, a run of whitespace and the three clock fields, each
      in its directive's range. */
  predicate DateFields(fy: string, fm: string, fd: string, ws: string, fh: string, fmi: string, fs: string) {
    && IsDigitString(fy) && |fy| == 4
    && ShortText(fm, 1, 12) && DayText(fd)
    && |ws| > 0 && (forall i :: 0 <= i < |ws| ==> IsSpace(ws[i]))
    && ShortText(fh, 0, 23) && ShortText(fmi, 0, 59) && ShortText(fs, 0, 61)
  }

  lemma DayOf(fd: string, tail: string)
    requires DayText(fd)
    requires |tail| > 0 ==> !IsDigit(tail[0])
    ensures DayField(fd + tail) == Some(Field(DayValue(fd), tail))
  {
    if fd[0] == ' ' {
      assert (fd + tail)[0] == ' ' && (fd + tail)[1] == fd[1];
      assert (fd + tail)[2..] == tail;
    } else {
      ShortFieldOf(fd, tail, 1, 31);
      assert (fd + tail)[0] == fd[0];
    }
  }

  lemma CalendarAccepts(fm: string, fd: string, tail: string)
    requires ShortText(fm, 1, 12) && DayText(fd)
    requires |tail| > 0 ==> !IsDigit(tail[0])
    ensures var s3 := "-" + (fd + tail);
      && Char("-" + (fm + s3), '-') == Some(fm + s3)
      && ShortField(fm + s3, 1, 12) == Some(Field(DigitsValue(fm), s3))
      && Char(s3, '-') == Some(fd + tail)
      && DayField(fd + tail) == Some(Field(DayValue(fd), tail))
  {
    var s3 := "-" + (fd + tail);
    ShortFieldOf(fm, s3, 1, 12);
    DayOf(fd, tail);
  }

  /** Every text built from such field texts, zero-padded or not, is
      accepted and read as the numbers it spells. */
  lemma StrptimeAccepts(fy: string, fm: string, fd: string, ws: string, fh: string, fmi: string, fs: string)
    requires DateFields(fy, fm, fd, ws, fh, fmi, fs)
    ensures Strptime(DateText(fy, fm, fd, ws, fh, fmi, fs))
         == Some(DateTime(DigitsValue(fy), DigitsValue(fm), DayValue(fd),
                          DigitsValue(fh), DigitsValue(fmi), DigitsValue(fs)))
  {
    var clock := ClockText(fh, fmi, fs);
    assert clock[0] == fh[0];
    CalendarOf(fy, fm, fd, ws, clock);
    ClockAccepts(fh, fmi, fs);
  }

  lemma CalendarOf(fy: string, fm: string, fd: string, ws: string, clock: string)
    requires IsDigitString(fy) && |fy| == 4
    requires ShortText(fm, 1, 12) && DayText(fd)
    requires |ws| > 0 && forall i :: 0 <= i < |ws| ==> IsSpace(ws[i])
    requires |clock| > 0 ==> !IsSpace(clock[0])
    ensures CalendarDate(fy + ("-" + (fm + ("-" + (fd + (ws + clock))))))
         == Some(Calendar(DigitsValue(fy), DigitsValue(fm), DayValue(fd), clock))
  {
    var tail := ws + clock;
    YearOf(fy, "-" + (fm + ("-" + (fd + tail))));
    assert tail[0] == ws[0];
    CalendarAccepts(fm, fd, tail);
    BlanksOf(ws, clock);
  }

  /** `strptime` accepts exactly the texts built from such field texts:
      whatever it reads has that shape, and every such text is read. */
  lemma StrptimeShapes(s: string)
    ensures Strptime(s).Some? <==>
      exists fy, fm, fd, ws, fh, fmi, fs ::
        DateFields(fy, fm, fd, ws, fh, fmi, fs) && s == DateText(fy, fm, fd, ws, fh, fmi, fs)
  {
    forall fy, fm, fd, ws, fh, fmi, fs | DateFields(fy, fm, fd, ws, fh, fmi, fs)
      ensures Strptime(DateText(fy, fm, fd, ws, fh, fmi, fs)).Some?
    {
      StrptimeAccepts(fy, fm, fd, ws, fh, fmi, fs);
    }
    if Strptime(s).Some? {
      var fy, fm, fd, ws, fh, fmi, fs := StrptimeFields(s);
    }
  }

  /** A string of any other shape is no date to `_parse_date`: it returns -1. */
  lemma MalformedDate(s: string, timestamp: DateTime -> Option<int>)
    requires forall fy, fm, fd, ws, fh, fmi, fs ::
      DateFields(fy, fm, fd, ws, fh, fmi, fs) ==> s != DateText(fy, fm, fd, ws, fh, fmi, fs)
    ensures ParseDate(Str(s), timestamp) == -1
  {
    StrptimeShapes(s);
  }

  /** The field texts a text `strptime` accepts is made of. */
  lemma StrptimeFields(s: string) returns (fy: string, fm: string, fd: string, ws: string,
                                           fh: string, fmi: string, fs: string)
    requires Strptime(s).Some?
    ensures DateFields(fy, fm, fd, ws, fh, fmi, fs) && s == DateText(fy, fm, fd, ws, fh, fmi, fs)
  {
    var c := CalendarDate(s).value;
    fy, fm, fd, ws := CalendarFields(s);
    fh, fmi, fs := ClockFields(c.rest);
  }

  lemma CalendarFields(s: string) returns (fy: string, fm: string, fd: string, ws: string)
    requires CalendarDate(s).Some?
    ensures IsDigitString(fy) && |fy| == 4 && ShortText(fm, 1, 12) && DayText(fd)
    ensures |ws| > 0 && forall i :: 0 <= i < |ws| ==> IsSpace(ws[i])
    ensures s == fy + ("-" + (fm + ("-" + (fd + (ws + CalendarDate(s).value.rest)))))
  {
    var y := YearField(s).value;
    fy := YearText(s);
    var s1 := Char(y.rest, '-').value;
    CharText(y.rest, '-');
    fm := ShortFieldText(s1, 1, 12);
    var m := ShortField(s1, 1, 12).value;
    var s2 := Char(m.rest, '-').value;
    CharText(m.rest, '-');
    fd := DayFieldText(s2);
    var d := DayField(s2).value;
    ws := BlanksText(d.rest);
    assert CalendarDate(s).value.rest == Blanks(d.rest).value;
  }

  lemma YearText(s: string) returns (fy: string)
    requires YearField(s).Some?
    ensures IsDigitString(fy) && |fy| == 4 && s == fy + YearField(s).value.rest
  {
    fy := s[..4];
    assert s == fy + s[4..];
  }

  lemma BlanksText(s: string) returns (ws: string)
    requires Blanks(s).Some?
    ensures |ws| > 0 && (forall i :: 0 <= i < |ws| ==> IsSpace(ws[i])) && s == ws + Blanks(s).value
  {
    var k := LeadingSpaces(s);
    ws := s[..k];
    assert s == ws + s[k..];
  }

  lemma ClockFields(r: string) returns (fh: string, fmi: string, fs: string)
    requires ClockTime(r).Some?
    ensures ShortText(fh, 0, 23) && ShortText(fmi, 0, 59) && ShortText(fs, 0, 61)
    ensures r == ClockText(fh, fmi, fs)
  {
    fh := ShortFieldText(r, 0, 23);
    var h := ShortField(r, 0, 23).value;
    var s1 := Char(h.rest, ':').value;
    CharText(h.rest, ':');
    fmi := ShortFieldText(s1, 0, 59);
    var mi := ShortField(s1, 0, 59).value;
    var s2 := Char(mi.rest, ':').value;
    CharText(mi.rest, ':');
    fs := ShortFieldText(s2, 0, 61);
    assert s2 == fs + "";
    assert mi.rest == ":" + fs;
    assert s1 == fmi + (":" + fs);
    assert h.rest == ":" + (fmi + (":" + fs));
  }

  /** The digits a one- or two-digit field was read from. */
  lemma ShortFieldText(s: string, lo: nat, hi: nat) returns (f: string)
    requires ShortField(s, lo, hi).Some?
    ensures ShortText(f, lo, hi) && s == f + ShortField(s, lo, hi).value.rest
  {
    var k := LeadingDigits(s);
    f := s[..k];
    assert s == s[..k] + s[k..];
  }

  /** The text a `%d` field was read from. */
  lemma DayFieldText(s: string) returns (fd: string)
    requires DayField(s).Some?
    ensures DayText(fd) && s == fd + DayField(s).value.rest
  {
    if s[0] == ' ' {
      fd := s[..2];
      assert s == s[..2] + s[2..];
    } else {
      fd := ShortFieldText(s, 1, 31);
    }
  }

  lemma CharText(s: string, c: char)
    requires Char(s, c).Some?
    ensures s == [c] + Char(s, c).value
  {
  }

  lemma {:induction false} DigitsValueAppend(a: string, b: string)
    requires AllDigits(a) && AllDigits(b)
    ensures DigitsValue(a + b) == DigitsValue(a) * Pow(10, |b|) + DigitsValue(b)
    decreases |b|
  {
    if |b| == 0 {
      assert a + b == a;
    } else {
      var b' := b[..|b| - 1];
      var d := DigitValue(b[|b| - 1]);
      assert (a + b)[..|a + b| - 1] == a + b';
      assert (a + b)[|a + b| - 1] == b[|b| - 1];
      assert DigitsValue(a + b) == 10 * DigitsValue(a + b') + d;
      DigitsValueAppend(a, b');
      var p := Pow(10, |b'|);
      assert Pow(10, |b|) == 10 * p;
      assert DigitsValue(b) == 10 * DigitsValue(b') + d;
      ShiftDigit(DigitsValue(a), p, DigitsValue(b'), d);
    }
  }

  lemma ShiftDigit(x: int, p: int, y: int, d: int)
    ensures 10 * (x * p + y) + d == x * (10 * p) + (10 * y + d)
  {
  }

  /** Two zero-padded digits. */
  function Pad2(n: nat): (r: string)
    requires n < 100
    ensures ShortText(r, 0, 99) && |r| == 2 && DigitsValue(r) == n
  {
    var a, b := [DigitChar(n / 10)], [DigitChar(n % 10)];
    DigitsValueAppend(a, b);
    assert DigitsValue(a) == n / 10 by { assert a[..0] == []; }
    assert DigitsValue(b) == n % 10 by { assert b[..0] == []; }
    a + b
  }

  /** Four zero-padded digits. */
  function Pad4(n: nat): (r: string)
    requires n < 10000
    ensures IsDigitString(r) && |r| == 4 && DigitsValue(r) == n
  {
    DigitsValueAppend(Pad2(n / 100), Pad2(n % 100));
    Pad2(n / 100) + Pad2(n % 100)
  }

  /** The form the vendor sends, "YYYY-MM-DD HH:MM:SS". */
  function Canonical(dt: DateTime): string
    requires dt.year <= 9999 && dt.month <= 99 && dt.day <= 99
    requires dt.hour <= 99 && dt.minute <= 99 && dt.second <= 99
  {
    DateText(Pad4(dt.year), Pad2(dt.month), Pad2(dt.day), " ",
             Pad2(dt.hour), Pad2(dt.minute), Pad2(dt.second))
  }

  /** Reading back a printed date gives the date: `Strptime` inverts `Canonical`. */
  lemma CanonicalRoundTrip(dt: DateTime)
    requires dt.year <= 9999 && 1 <= dt.month <= 12 && 1 <= dt.day <= 31
    requires dt.hour <= 23 && dt.minute <= 59 && dt.second <= 61
    ensures Strptime(Canonical(dt)) == Some(dt)
  {
    var fd := Pad2(dt.day);
    assert fd[0] != ' ' && ShortText(fd, 1, 31);
    StrptimeAccepts(Pad4(dt.year), Pad2(dt.month), fd, " ",
                    Pad2(dt.hour), Pad2(dt.minute), Pad2(dt.second));
  }

  /** For a valid date the whole of `_parse_date` comes down to the host's
      timestamp, and -1 exactly when that conversion fails or yields -1. */
  lemma ParseCanonical(dt: DateTime, timestamp: DateTime -> Option<int>)
    requires ValidDateTime(dt)
    ensures var r := ParseDate(Str(Canonical(dt)), timestamp);
      && (timestamp(dt).None? ==> r == -1)
      && (timestamp(dt).Some? ==> r == timestamp(dt).value)
  {
    var s := Canonical(dt);
    CanonicalRoundTrip(dt);
    ParseDateOf(s, dt, timestamp);
  }

  /** A string `strptime` reads as a valid date comes down to its timestamp. */
  lemma ParseDateOf(s: string, dt: DateTime, timestamp: DateTime -> Option<int>)
    requires s != "" && Strptime(s) == Some(dt) && ValidDateTime(dt)
    ensures timestamp(dt).None? ==> ParseDate(Str(s), timestamp) == -1
    ensures timestamp(dt).Some? ==> ParseDate(Str(s), timestamp) == timestamp(dt).value
  {
  }
}

=== FILE: mam.dfy ===
/** mam.py: up to three pages of one hundred results, each page a request
    with its own `startNumber`, every element of a page's `data` list turned
    into one printed record. */
module Mam {
  import opened Builtins
  import opened Sizes
  import opened Dates
  import opened Api

  const MaxPages: nat := 3
  const PageSize: nat := 100

  const Categories: map<string, seq<string>> := map[
    "all" := ["0"], "books" := ["14"], "music" := ["15"], "software" := ["0"],
    "movies" := ["0"], "tv" := ["16"], "anime" := ["0"], "games" := ["0"],
    "pictures" := ["0"]]

  /** `supported_categories.get(cat, ['0'])`. */
  function CategoryCodes(tag: string): seq<string> {
    if tag in Categories then Categories[tag] else ["0"]
  }

  /** Books, music and radio have their own codes; every other tag, known or
      not, searches everything. */
  lemma CategoryCodesOf(tag: string)
    ensures CategoryCodes(tag) == ["14"] <==> tag == "books"
    ensures CategoryCodes(tag) == ["15"] <==> tag == "music"
    ensures CategoryCodes(tag) == ["16"] <==> tag == "tv"
    ensures CategoryCodes(tag) == ["0"] <==> tag != "books" && tag != "music" && tag != "tv"
  {
  }

  /** The host calls the script makes and does not define: `retrieve_url`
      with `json.loads`, `urllib.parse.unquote_plus`, and
      `int(dt.timestamp())` of a parsed date (`None` where it raises). */
  datatype Host = Host(
    transport: Request -> Reply,
    unquote: string -> string,
    timestamp: DateTime -> Option<int>)

  const Headers: map<string, string> := map[
    "Content-Type" := "application/json", "Accept" := "application/json",
    "User-Agent" := "qBittorrent MAM Plugin"]

  /** The fixed fields of the request body. */
  const BaseBody: SearchBody :=
    SearchBody("", ["title", "author", "narrator", "series"], "all", "torrents", ["0"],
               "0", "", "", "", "seedersDesc", "0", "false")

  /** The request for page `page` (counted from 0). */
  function PageRequest(text: string, cat: string, page: nat): Request {
    Request(SearchUrl,
            BaseBody.(text := text, cat := CategoryCodes(cat), startNumber := NatToString(page * PageSize)),
            Headers)
  }

  /** Page `page` asks for the results from offset `page * 100` on. */
  lemma PageOffset(text: string, cat: string, page: nat)
    ensures var n := PageRequest(text, cat, page).body.startNumber;
      IsDigitString(n) && DigitsValue(n) == page * PageSize
  {
    NatToStringRoundTrip(page * PageSize);
  }

  /** What the requests of pages 0, 1, ... carry: the query, the category
      codes and the offset of each page. */
  lemma PagedRequests(text: string, cat: string, requests: seq<Request>)
    requires forall k :: 0 <= k < |requests| ==> requests[k] == PageRequest(text, cat, k)
    ensures forall k :: 0 <= k < |requests| ==>
      && requests[k].body.startNumber == NatToString(k * PageSize)
      && requests[k].body.text == text
      && requests[k].body.cat == CategoryCodes(cat)
      && IsDigitString(requests[k].body.startNumber)
      && DigitsValue(requests[k].body.startNumber) == k * PageSize
  {
    forall k | 0 <= k < |requests|
      ensures IsDigitString(requests[k].body.startNumber)
      ensures DigitsValue(requests[k].body.startNumber) == k * PageSize
    {
      PageOffset(text, cat, k);
    }
  }

  /** Different pages ask for different offsets. */
  lemma PageRequestsDiffer(text: string, cat: string, i: nat, j: nat)
    requires i != j
    ensures PageRequest(text, cat, i) != PageRequest(text, cat, j)
  {
    if NatToString(i * PageSize) == NatToString(j * PageSize) {
      NatToStringInjective(i * PageSize, j * PageSize);
    }
  }

  // ---------------------------------------------------------------------------
  // _process_result

  /** `_process_result(torrent)`: the record it prints, `None` where
      something raises and the handler swallows it: the element is not an
      object, the title is not a string, `int()` refuses the size, or
      `float()` overflows on it. The record itself is `RecordOf` the
      torrent's fields, its title and its formatted size. */
  function ProcessResult(item: Item, timestamp: DateTime -> Option<int>): (r: Option<Record>)
    ensures r.Some? <==>
      && item.Torrent?
      && Get(item.fields, "title", Str("")).Str?
      && PyInt(Get(item.fields, "size", Int(0))).Some?
      && !FloatOverflows(PyInt(Get(item.fields, "size", Int(0))).value)
    ensures r.Some? ==>
      var bytes := PyInt(Get(item.fields, "size", Int(0))).value;
      && FormatSize(bytes).Some?
      && r.value == RecordOf(item.fields, Get(item.fields, "title", Str("")).s, FormatSize(bytes).value, timestamp)
  {
    match item
    case Foreign => None
    case Torrent(f) =>
      var title := Get(f, "title", Str(""));
      if !title.Str? then None
      else
        var bytes :- PyInt(Get(f, "size", Int(0)));
        var size :- FormatSize(bytes);
        Some(RecordOf(f, title.s, size, timestamp))
  }

  /** The record `_process_result` builds once the title is known to be a
      string and the size has been formatted. */
  function RecordOf(f: map<string, Scalar>, title: string, size: SizeText,
                    timestamp: DateTime -> Option<int>): (r: Record)
    ensures r.engineUrl == SiteUrl && r.size == size
  {
    var id := PyStr(Get(f, "id", Str("")));
    Record(
      link := DownloadLink(Get(f, "dl", Str("")), id),
      name := Str(Strip(StrSpaces, title)),
      size := size,
      seeds := PyStr(Get(f, "seeders", Int(0))),
      leech := PyStr(Get(f, "leechers", Int(0))),
      engineUrl := SiteUrl,
      descLink := DescLink(id),
      pubDate := IntToString(ParseDate(Get(f, "added", Str("")), timestamp)))
  }

  /** The printed name is the title with the whitespace at both ends cut
      away, and nothing else. */
  lemma RecordName(f: map<string, Scalar>, title: string, size: SizeText, timestamp: DateTime -> Option<int>)
    ensures var name := RecordOf(f, title, size, timestamp).name;
      name.Str? && StrippedFrom(StrSpaces, name.s, title, |title| - |StripLeft(StrSpaces, title)|)
  {
    StripSpec(StrSpaces, title);
  }

  /** Integer counts read back as themselves; missing counts print "0". */
  lemma RecordCounts(f: map<string, Scalar>, title: string, size: SizeText, timestamp: DateTime -> Option<int>)
    ensures var r := RecordOf(f, title, size, timestamp);
      && ("seeders" !in f ==> r.seeds == "0")
      && ("leechers" !in f ==> r.leech == "0")
      && ("seeders" in f && f["seeders"].Int? ==> PyIntOfText(r.seeds) == Some(f["seeders"].i))
      && ("leechers" in f && f["leechers"].Int? ==> PyIntOfText(r.leech) == Some(f["leechers"].i))
  {
    var r := RecordOf(f, title, size, timestamp);
    assert r.seeds == PyStr(Get(f, "seeders", Int(0)));
    assert r.leech == PyStr(Get(f, "leechers", Int(0)));
    if "seeders" in f && f["seeders"].Int? {
      IntTextRoundTrip(f["seeders"].i);
    }
    if "leechers" in f && f["leechers"].Int? {
      IntTextRoundTrip(f["leechers"].i);
    }
  }

  /** The date column reads back as the number `_parse_date` returned (-1,
      or the host's timestamp of a date that parsed and is valid), and is
      "-1" when the torrent has no date. */
  lemma RecordDate(f: map<string, Scalar>, title: string, size: SizeText, timestamp: DateTime -> Option<int>)
    ensures PyIntOfText(RecordOf(f, title, size, timestamp).pubDate)
         == Some(ParseDate(Get(f, "added", Str("")), timestamp))
    ensures "added" !in f ==> RecordOf(f, title, size, timestamp).pubDate == "-1"
  {
    var t := ParseDate(Get(f, "added", Str("")), timestamp);
    assert RecordOf(f, title, size, timestamp).pubDate == IntToString(t);
    IntTextRoundTrip(t);
    if "added" !in f {
      MissingDate(timestamp);
    }
  }

  /** The empty default for `added` prints "-1". */
  lemma MissingDate(timestamp: DateTime -> Option<int>)
    ensures IntToString(ParseDate(Str(""), timestamp)) == "-1"
  {
    assert NatToString(1) == "1";
  }

  /** A date in the vendor's "YYYY-MM-DD HH:MM:SS" form prints the host's
      timestamp for it. */
  lemma RecordCanonicalDate(f: map<string, Scalar>, title: string, size: SizeText,
                            timestamp: DateTime -> Option<int>, dt: DateTime)
    requires ValidDateTime(dt) && Get(f, "added", Str("")) == Str(Canonical(dt))
    requires timestamp(dt).Some?
    ensures RecordOf(f, title, size, timestamp).pubDate == IntToString(timestamp(dt).value)
  {
    ParseCanonical(dt, timestamp);
  }

  /** The link names the hash exactly when `dl` is truthy, and the torrent
      id otherwise; the detail link names the id. */
  lemma RecordLinks(f: map<string, Scalar>, title: string, size: SizeText, timestamp: DateTime -> Option<int>)
    ensures var r := RecordOf(f, title, size, timestamp);
      var dl := Get(f, "dl", Str(""));
      var id := PyStr(Get(f, "id", Str("")));
      && (Truthy(dl) ==> ParseDownloadLink(r.link) == ByHash(PyStr(dl)))
      && (!Truthy(dl) ==> ParseDownloadLink(r.link) == ById(id))
      && r.descLink == DetailBase + id
  {
    DownloadLinkRoundTrip(Get(f, "dl", Str("")), PyStr(Get(f, "id", Str(""))));
  }

  // ---------------------------------------------------------------------------
  // search

  /** `_process_result` as the function the loop applies to each element. */
  function Processor(timestamp: DateTime -> Option<int>): Item -> Option<Record> {
    item => ProcessResult(item, timestamp)
  }

  /** The records a page prints: those of its `data` list when that is a
      list, each element passed through `process`. A `data` object or string
      is iterated too, but its elements are keys or characters, on which
      `.get` raises, so nothing is printed. */
  function PageRecords(reply: Reply, process: Item -> Option<Record>): seq<Record> {
    match reply
    case Body(Some(Items(xs))) => Collect(xs, process)
    case _ => []
  }

  /** Whether the loop goes on to the next page after `reply`, as written:
      on a falsy body (`continue`) and on a full page. It stops on a missing
      or falsy `data` and on a short page; and any exception ends the whole
      search, because the inner handler's `sys` is unbound there (the
      function's own `import sys` makes the name local) and the outer
      handler catches the resulting `UnboundLocalError`. Iterating a number
      or `True` raises too. */
  predicate NextPage(reply: Reply) {
    match reply
    case NoBody => true
    case Raised => false
    case Body(None) => false
    case Body(Some(Items(xs))) => |xs| >= PageSize
    case Body(Some(Sized(n))) => n >= PageSize
    case Body(Some(Unsized(_))) => false
  }

  /** The evidently intended rule: the inner handler's `continue` is reached,
      so a page that raises is skipped rather than ending the search. */
  predicate NextPageIntended(reply: Reply) {
    match reply
    case NoBody => true
    case Raised => true
    case Body(None) => false
    case Body(Some(Items(xs))) => |xs| >= PageSize
    case Body(Some(Sized(n))) => n >= PageSize
    case Body(Some(Unsized(t))) => t
  }

  /** The records of a run of requests, page by page. */
  function RecordsOf(requests: seq<Request>, transport: Request -> Reply,
                     process: Item -> Option<Record>): seq<Record>
    decreases |requests|
  {
    if |requests| == 0 then []
    else PageRecords(transport(requests[0]), process) + RecordsOf(requests[1..], transport, process)
  }

  /** The loop from page `page` on, with `transport` answering each request,
      `process` turning each element of a page into its record, and `next`
      deciding after each reply whether to go on: the pages are requested in
      order from `page`, and the records are those of the pages requested. */
  function Pages(requestOf: nat -> Request, transport: Request -> Reply,
                 process: Item -> Option<Record>, next: Reply -> bool, page: nat): (o: Outcome)
    requires page <= MaxPages
    ensures page < MaxPages ==> 1 <= |o.requests|
    ensures |o.requests| <= MaxPages - page
    ensures forall k :: 0 <= k < |o.requests| ==> o.requests[k] == requestOf(page + k)
    ensures o.records == RecordsOf(o.requests, transport, process)
    decreases MaxPages - page
  {
    if page == MaxPages then Outcome([], [])
    else
      var request := requestOf(page);
      var reply := transport(request);
      var records := PageRecords(reply, process);
      if next(reply) then
        var rest := Pages(requestOf, transport, process, next, page + 1);
        var requests := [request] + rest.requests;
        RecordsOfCons(request, rest.requests, transport, process);
        ShiftedRequests(request, rest.requests, requestOf, page);
        Outcome(requests, records + rest.records)
      else
        RecordsOfCons(request, [], transport, process);
        Outcome([request], records)
  }

  lemma RecordsOfCons(request: Request, rest: seq<Request>, transport: Request -> Reply,
                      process: Item -> Option<Record>)
    ensures RecordsOf([request] + rest, transport, process)
         == PageRecords(transport(request), process) + RecordsOf(rest, transport, process)
  {
    assert ([request] + rest)[1..] == rest;
  }

  lemma ShiftedRequests(request: Request, rest: seq<Request>, requestOf: nat -> Request, page: nat)
    requires request == requestOf(page)
    requires forall k :: 0 <= k < |rest| ==> rest[k] == requestOf(page + 1 + k)
    ensures forall k :: 0 <= k < |rest| + 1 ==> ([request] + rest)[k] == requestOf(page + k)
  {
    forall k | 0 <= k < |rest| + 1 ensures ([request] + rest)[k] == requestOf(page + k) {
      if k > 0 {
        assert ([request] + rest)[k] == rest[k - 1];
      }
    }
  }

  /** One turn of the loop: page `page` is requested, and the pages after it
      follow exactly when `next` says so. */
  lemma PagesStep(requestOf: nat -> Request, transport: Request -> Reply,
                  process: Item -> Option<Record>, next: Reply -> bool, page: nat)
    requires page < MaxPages
    ensures var request := requestOf(page);
      var reply := transport(request);
      var o := Pages(requestOf, transport, process, next, page);
      var rest := Pages(requestOf, transport, process, next, page + 1);
      && (next(reply) ==> o == Outcome([request] + rest.requests, PageRecords(reply, process) + rest.records))
      && (!next(reply) ==> o == Outcome([request], PageRecords(reply, process)))
  {
  }

  /** The loop goes on after every page but the last, and the last one
      stopped it unless the page limit was reached. */
  lemma {:induction false} PagesStop(requestOf: nat -> Request, transport: Request -> Reply,
                                     process: Item -> Option<Record>, next: Reply -> bool, page: nat)
    requires page <= MaxPages
    ensures var o := Pages(requestOf, transport, process, next, page);
      && (forall k :: 0 <= k < |o.requests| - 1 ==> next(transport(o.requests[k])))
      && (0 < |o.requests| < MaxPages - page ==> !next(transport(o.requests[|o.requests| - 1])))
    decreases MaxPages - page
  {
    if page < MaxPages {
      var o := Pages(requestOf, transport, process, next, page);
      var request := requestOf(page);
      if next(transport(request)) {
        PagesStop(requestOf, transport, process, next, page + 1);
        var rest := Pages(requestOf, transport, process, next, page + 1);
        assert o.requests == [request] + rest.requests;
        forall k | 0 <= k < |o.requests| - 1 ensures next(transport(o.requests[k])) {
          if k > 0 {
            assert o.requests[k] == rest.requests[k - 1];
          }
        }
        if 0 < |o.requests| < MaxPages - page {
          assert o.requests[|o.requests| - 1] == rest.requests[|rest.requests| - 1];
        }
      }
    }
  }

  /** The request for each page of a search for `text` in category `cat`. */
  function PageRequests(text: string, cat: string): (requestOf: nat -> Request)
    ensures forall page: nat :: requestOf(page) == PageRequest(text, cat, page)
  {
    (page: nat) => PageRequest(text, cat, page)
  }

  /** The paging loop of a search for `text` in category `cat`, with
      `process` turning each element into its record and `next` deciding
      after each reply whether to go on. */
  function SearchPages(text: string, cat: string, transport: Request -> Reply,
                       process: Item -> Option<Record>, next: Reply -> bool): (o: Outcome)
    ensures 1 <= |o.requests| <= MaxPages
    ensures forall k :: 0 <= k < |o.requests| ==> o.requests[k] == PageRequest(text, cat, k)
    ensures forall k :: 0 <= k < |o.requests| - 1 ==> next(transport(o.requests[k]))
    ensures |o.requests| < MaxPages ==> !next(transport(o.requests[|o.requests| - 1]))
    ensures o.records == RecordsOf(o.requests, transport, process)
  {
    var o := Pages(PageRequests(text, cat), transport, process, next, 0);
    PagesStop(PageRequests(text, cat), transport, process, next, 0);
    o
  }

  /** `search(what, cat)` as written. */
  function Search(what: string, cat: string, host: Host): (o: Outcome)
    ensures 1 <= |o.requests| <= MaxPages
    ensures forall k :: 0 <= k < |o.requests| ==> o.requests[k] == PageRequest(host.unquote(what), cat, k)
    ensures forall k :: 0 <= k < |o.requests| - 1 ==> NextPage(host.transport(o.requests[k]))
    ensures |o.requests| < MaxPages ==> !NextPage(host.transport(o.requests[|o.requests| - 1]))
    ensures o.records == RecordsOf(o.requests, host.transport, Processor(host.timestamp))
  {
    SearchPages(host.unquote(what), cat, host.transport, Processor(host.timestamp), NextPage)
  }

  /** Page k of a search asks for the unquoted query in the category's codes,
      from offset `str(k * 100)`. */
  lemma SearchOffsets(what: string, cat: string, host: Host)
    ensures var o := Search(what, cat, host);
      forall k :: 0 <= k < |o.requests| ==>
        && o.requests[k].body.startNumber == NatToString(k * PageSize)
        && o.requests[k].body.text == host.unquote(what)
        && o.requests[k].body.cat == CategoryCodes(cat)
        && IsDigitString(o.requests[k].body.startNumber)
        && DigitsValue(o.requests[k].body.startNumber) == k * PageSize
  {
    PagedRequests(host.unquote(what), cat, Search(what, cat, host).requests);
  }

  /** `search(what, cat)` with the inner handler working as evidently intended. */
  function SearchIntended(what: string, cat: string, host: Host): (o: Outcome)
    ensures 1 <= |o.requests| <= MaxPages
    ensures forall k :: 0 <= k < |o.requests| ==> o.requests[k] == PageRequest(host.unquote(what), cat, k)
    ensures forall k :: 0 <= k < |o.requests| - 1 ==> NextPageIntended(host.transport(o.requests[k]))
    ensures |o.requests| < MaxPages ==> !NextPageIntended(host.transport(o.requests[|o.requests| - 1]))
    ensures o.records == RecordsOf(o.requests, host.transport, Processor(host.timestamp))
  {
    SearchPages(host.unquote(what), cat, host.transport, Processor(host.timestamp), NextPageIntended)
  }

  // ---------------------------------------------------------------------------
  // Scenarios

  /** Two full pages and a short one: three requests, and the records of the
      three lists one after the other. */
  lemma FullPagesThenShort(what: string, cat: string, host: Host, a: seq<Item>, b: seq<Item>, c: seq<Item>)
    requires |a| >= PageSize && |b| >= PageSize && 0 < |c| < PageSize
    requires host.transport(PageRequest(host.unquote(what), cat, 0)) == Body(Some(Items(a)))
    requires host.transport(PageRequest(host.unquote(what), cat, 1)) == Body(Some(Items(b)))
    requires host.transport(PageRequest(host.unquote(what), cat, 2)) == Body(Some(Items(c)))
    ensures var o := Search(what, cat, host);
      var process := Processor(host.timestamp);
      && |o.requests| == 3
      && o.records == Collect(a, process) + (Collect(b, process) + Collect(c, process))
  {
    var text := host.unquote(what);
    var process := Processor(host.timestamp);
    ThreePages(PageRequests(text, cat), host.transport, process, a, b, c);
    assert Search(what, cat, host) == Pages(PageRequests(text, cat), host.transport, process, NextPage, 0);
  }

  /** The loop itself on two full pages and a short one, page by page. */
  lemma ThreePages(requestOf: nat -> Request, transport: Request -> Reply, process: Item -> Option<Record>,
                   a: seq<Item>, b: seq<Item>, c: seq<Item>)
    requires |a| >= PageSize && |b| >= PageSize && 0 < |c| < PageSize
    requires transport(requestOf(0)) == Body(Some(Items(a)))
    requires transport(requestOf(1)) == Body(Some(Items(b)))
    requires transport(requestOf(2)) == Body(Some(Items(c)))
    ensures var o := Pages(requestOf, transport, process, NextPage, 0);
      && |o.requests| == 3
      && o.records == Collect(a, process) + (Collect(b, process) + Collect(c, process))
  {
    LastTwoPages(requestOf, transport, process, b, c);
    FullPage(requestOf, transport, process, 0, a);
  }

  /** Pages 1 and 2 when page 1 is full and page 2 short. */
  lemma LastTwoPages(requestOf: nat -> Request, transport: Request -> Reply, process: Item -> Option<Record>,
                     b: seq<Item>, c: seq<Item>)
    requires |b| >= PageSize && 0 < |c| < PageSize
    requires transport(requestOf(1)) == Body(Some(Items(b)))
    requires transport(requestOf(2)) == Body(Some(Items(c)))
    ensures var o := Pages(requestOf, transport, process, NextPage, 1);
      && o.requests == [requestOf(1), requestOf(2)]
      && o.records == Collect(b, process) + Collect(c, process)
  {
    ShortPage(requestOf, transport, process, 2, c);
    FullPage(requestOf, transport, process, 1, b);
  }

  /** A full page: the page is requested, its records printed, and the loop
      goes on to the next page. */
  lemma FullPage(requestOf: nat -> Request, transport: Request -> Reply, process: Item -> Option<Record>,
                 page: nat, xs: seq<Item>)
    requires page < MaxPages && |xs| >= PageSize
    requires transport(requestOf(page)) == Body(Some(Items(xs)))
    ensures var o := Pages(requestOf, transport, process, NextPage, page);
      var rest := Pages(requestOf, transport, process, NextPage, page + 1);
      && o.requests == [requestOf(page)] + rest.requests
      && o.records == Collect(xs, process) + rest.records
  {
    PagesStep(requestOf, transport, process, NextPage, page);
  }

  /** A short page: the page is requested, its records printed, and the
      loop stops. */
  lemma ShortPage(requestOf: nat -> Request, transport: Request -> Reply, process: Item -> Option<Record>,
                  page: nat, xs: seq<Item>)
    requires page < MaxPages && |xs| < PageSize
    requires transport(requestOf(page)) == Body(Some(Items(xs)))
    ensures Pages(requestOf, transport, process, NextPage, page)
         == Outcome([requestOf(page)], Collect(xs, process))
  {
    PagesStep(requestOf, transport, process, NextPage, page);
  }

  /** An empty first page ends the search after one request, with nothing printed. */
  lemma EmptyFirstPage(what: string, cat: string, host: Host)
    requires host.transport(PageRequest(host.unquote(what), cat, 0)) == Body(Some(Items([])))
    ensures var o := Search(what, cat, host);
      |o.requests| == 1 && o.records == []
  {
    var text := host.unquote(what);
    var process := Processor(host.timestamp);
    ShortPage(PageRequests(text, cat), host.transport, process, 0, []);
    assert Search(what, cat, host) == Pages(PageRequests(text, cat), host.transport, process, NextPage, 0);
  }

  /** Falsy bodies are skipped: when every page comes back empty-bodied, all
      three pages are requested and nothing is printed. */
  lemma AllBodiesEmpty(what: string, cat: string, host: Host)
    requires forall p: nat :: p < MaxPages ==> host.transport(PageRequest(host.unquote(what), cat, p)) == NoBody
    ensures var o := Search(what, cat, host);
      |o.requests| == MaxPages && o.records == []
  {
    var text := host.unquote(what);
    var process := Processor(host.timestamp);
    NoBodyPages(PageRequests(text, cat), host.transport, process, 0);
    assert Search(what, cat, host) == Pages(PageRequests(text, cat), host.transport, process, NextPage, 0);
  }

  /** The loop itself from page `page` on, when every reply from there has an
      empty body: every remaining page is requested and nothing is printed. */
  lemma {:induction false} NoBodyPages(requestOf: nat -> Request, transport: Request -> Reply,
                                       process: Item -> Option<Record>, page: nat)
    requires page <= MaxPages
    requires forall p :: page <= p < MaxPages ==> transport(requestOf(p)) == NoBody
    ensures var o := Pages(requestOf, transport, process, NextPage, page);
      |o.requests| == MaxPages - page && o.records == []
    decreases MaxPages - page
  {
    if page < MaxPages {
      PagesStep(requestOf, transport, process, NextPage, page);
      NoBodyPages(requestOf, transport, process, page + 1);
    }
  }

  /** As written, a first page whose reply raises ends the search at once,
      with nothing printed, even when a later page would have results. */
  lemma RaisedPageEndsSearch(what: string, cat: string, host: Host)
    requires host.transport(PageRequest(host.unquote(what), cat, 0)) == Raised
    ensures var o := Search(what, cat, host);
      |o.requests| == 1 && o.records == []
  {
    var text := host.unquote(what);
    var process := Processor(host.timestamp);
    PagesStep(PageRequests(text, cat), host.transport, process, NextPage, 0);
    assert Search(what, cat, host) == Pages(PageRequests(text, cat), host.transport, process, NextPage, 0);
  }

  /** As intended, a page that raises is skipped and the next page requested. */
  lemma IntendedSkipsRaisedPage(what: string, cat: string, host: Host)
    requires host.transport(PageRequest(host.unquote(what), cat, 0)) == Raised
    ensures var o := SearchIntended(what, cat, host);
      |o.requests| >= 2 && o.requests[1] == PageRequest(host.unquote(what), cat, 1)
  {
    var text := host.unquote(what);
    var process := Processor(host.timestamp);
    PagesStep(PageRequests(text, cat), host.transport, process, NextPageIntended, 0);
    assert SearchIntended(what, cat, host) == Pages(PageRequests(text, cat), host.transport, process, NextPageIntended, 0);
  }
}

=== FILE: plugin.dfy ===
/** myanonymouse-qbittorrent-plugin.py: one request per search, authenticated
    with a cookie or HTTP basic credentials, every element of the reply's
    `data` list turned into one printed record. */
module Plugin {
  import opened Builtins
  import opened Sizes
  import opened Api

  const Categories: map<string, string> := map["all" := "0", "books" := "14", "audio" := "13"]

  /** `supported_categories.get(cat, '0')`. */
  function CategoryCode(tag: string): (code: string)
    ensures code == "14" <==> tag == "books"
    ensures code == "13" <==> tag == "audio"
    ensures code == "0" <==> tag != "books" && tag != "audio"
  {
    if tag in Categories then Categories[tag] else "0"
  }

  /** The class-level credentials `USERNAME`, `PASSWORD` and `COOKIES`. */
  datatype Config = Config(username: string, password: string, cookies: string)

  /** The library and host calls the script makes, none of which it defines:
      `retrieve_url` with `json.loads`, `base64.b64encode(...).decode()`,
      `json.loads` of the author field (`None` where it raises), and
      `int(datetime.fromisoformat(s).timestamp())` (`None` where it raises). */
  datatype Host = Host(
    transport: Request -> Reply,
    b64: string -> string,
    decodeJson: string -> Option<Json>,
    isoTimestamp: string -> Option<int>)

  const BaseHeaders: map<string, string> :=
    map["Content-Type" := "application/json", "User-Agent" := "qBittorrent Search Plugin"]

  predicate IsAscii(s: string) {
    forall i :: 0 <= i < |s| ==> s[i] < '\U{0080}'
  }

  /** The request headers: a `Cookie` header when cookies are configured,
      otherwise basic credentials when both username and password are set.
      `None` where encoding the credentials as ASCII raises. */
  function Headers(cfg: Config, b64: string -> string): (h: Option<map<string, string>>)
    ensures h.None? <==>
      cfg.cookies == "" && cfg.username != "" && cfg.password != ""
      && !IsAscii(cfg.username + ":" + cfg.password)
    ensures h.Some? ==> !("Cookie" in h.value && "Authorization" in h.value)
    ensures h.Some? ==> ("Cookie" in h.value <==> cfg.cookies != "")
    ensures h.Some? && "Cookie" in h.value ==> h.value["Cookie"] == cfg.cookies
    ensures h.Some? ==>
      ("Authorization" in h.value <==> cfg.cookies == "" && cfg.username != "" && cfg.password != "")
    ensures h.Some? && "Authorization" in h.value ==>
      h.value["Authorization"] == "Basic " + b64(cfg.username + ":" + cfg.password)
    ensures h.Some? ==> forall k :: k in BaseHeaders ==> k in h.value && h.value[k] == BaseHeaders[k]
  {
    if cfg.cookies != "" then Some(BaseHeaders["Cookie" := cfg.cookies])
    else if cfg.username != "" && cfg.password != "" then
      var credentials := cfg.username + ":" + cfg.password;
      if !IsAscii(credentials) then None
      else Some(BaseHeaders["Authorization" := "Basic " + b64(credentials)])
    else Some(BaseHeaders)
  }

  /** The fixed fields of the request body. */
  const BaseBody: SearchBody :=
    SearchBody("", ["title", "author", "narrator"], "all", "torrents", ["0"],
               "0", "", "", "", "seedersDesc", "0", "true")

  function SearchBodyFor(what: string, cat: string): SearchBody {
    BaseBody.(text := what, cat := [CategoryCode(cat)])
  }

  // ---------------------------------------------------------------------------
  // parse_and_print_result

  /** `torrent.get('title', torrent.get('name', 'Unknown Title'))`. */
  function Title(f: map<string, Scalar>): Scalar {
    if "title" in f then f["title"] else Get(f, "name", Str("Unknown Title"))
  }

  /** The names `', '.join(list(authors.values())[:2])` joins, when the first
      two values (or the only one) are strings; `None` where `join` raises. */
  function FirstTwoNames(vals: seq<Json>): (r: Option<seq<string>>)
    ensures r.Some? ==> |r.value| == Min(2, |vals|)
    ensures r.Some? ==> forall i :: 0 <= i < |r.value| ==> vals[i] == Atom(Str(r.value[i]))
  {
    if |vals| == 0 then Some([])
    else if !vals[0].Atom? || !vals[0].a.Str? then None
    else if |vals| == 1 then Some([vals[0].a.s])
    else if !vals[1].Atom? || !vals[1].a.Str? then None
    else Some([vals[0].a.s, vals[1].a.s])
  }

  /** When the author annotation applies: the title and the author field are
      strings, the field decodes to a non-empty JSON object, and its first two
      values (or its only one) are strings. */
  predicate Annotatable(title: Scalar, info: Scalar, decode: string -> Option<Json>) {
    && title.Str? && info.Str? && info.s != ""
    && decode(info.s).Some? && decode(info.s).value.Object?
    && |decode(info.s).value.values| > 0
    && FirstTwoNames(decode(info.s).value.values).Some?
  }

  /** The author annotation of the title: `title += " - " + names` inside a
      `try` whose bare `except` swallows every failure (the field is not a
      string, the JSON is bad or not a non-empty object, a name is not a
      string, or the title itself is not a string). */
  function Annotate(title: Scalar, info: Scalar, decode: string -> Option<Json>): (r: Scalar)
    ensures r != title <==> Annotatable(title, info, decode)
    ensures Annotatable(title, info, decode) ==>
      r == Str(title.s + " - " + Join(FirstTwoNames(decode(info.s).value.values).value, ", "))
  {
    if !Truthy(info) || !info.Str? then title
    else match decode(info.s)
      case Some(Object(vals)) =>
        if |vals| == 0 then title
        else (match FirstTwoNames(vals)
          case Some(names) =>
            if title.Str? then
              assert |title.s + " - " + Join(names, ", ")| > |title.s|;
              Str(title.s + " - " + Join(names, ", "))
            else title
          case None => title)
      case _ => title
  }

  /** The `pub_date` column: `str(torrent.get('added', '-1'))`, converted
      from ISO form when it contains `T` or `-`, and "-1" when that fails. */
  function PubDate(added: Scalar, isoTimestamp: string -> Option<int>): (r: string)
    ensures added == Str("-1") ==> r == "-1"
    ensures !Contains(PyStr(added), 'T') && !Contains(PyStr(added), '-') ==> r == PyStr(added)
    ensures Contains(PyStr(added), 'T') || Contains(PyStr(added), '-') ==>
      match isoTimestamp(ReplaceChar(PyStr(added), 'Z', "+00:00"))
      case None => r == "-1"
      case Some(t) => PyStr(added) != "-1" ==> r == IntToString(t)
  {
    var text := PyStr(added);
    if text != "" && text != "-1" && (Contains(text, 'T') || Contains(text, '-')) then
      match isoTimestamp(ReplaceChar(text, 'Z', "+00:00"))
      case None => "-1"
      case Some(t) => IntToString(t)
    else text
  }

  /** `parse_and_print_result(torrent)`: the record it prints, `None` when
      the element is not an object and `.get` raises. */
  function ParseAndPrint(item: Item, host: Host): (r: Option<Record>)
    ensures r.Some? <==> item.Torrent?
    ensures r.Some? ==> r.value.engineUrl == SiteUrl
    ensures r.Some? ==> var f := item.fields;
      && r.value.size == FormatSizeBytes(Get(f, "size", Str("0")))
      && r.value.seeds == PyStr(Get(f, "seeders", Str("-1")))
      && r.value.leech == PyStr(Get(f, "leechers", Str("-1")))
      && r.value.pubDate == PubDate(Get(f, "added", Str("-1")), host.isoTimestamp)
  {
    match item
    case Foreign => None
    case Torrent(f) =>
      var id := PyStr(Get(f, "id", Str("")));
      Some(Record(
        link := DownloadLink(Get(f, "dl", Str("")), id),
        name := Annotate(Title(f), Get(f, "author_info", Str("")), host.decodeJson),
        size := FormatSizeBytes(Get(f, "size", Str("0"))),
        seeds := PyStr(Get(f, "seeders", Str("-1"))),
        leech := PyStr(Get(f, "leechers", Str("-1"))),
        engineUrl := SiteUrl,
        descLink := DescLink(id),
        pubDate := PubDate(Get(f, "added", Str("-1")), host.isoTimestamp)))
  }

  /** Missing counts print "-1", and so does a missing date. */
  lemma RecordDefaults(f: map<string, Scalar>, host: Host)
    ensures var r := ParseAndPrint(Torrent(f), host).value;
      && ("seeders" !in f ==> r.seeds == "-1")
      && ("leechers" !in f ==> r.leech == "-1")
      && ("added" !in f ==> r.pubDate == "-1")
  {
  }

  /** The detail link names the torrent id, and is the bare detail path when
      the id is missing. */
  lemma RecordDescLink(f: map<string, Scalar>, host: Host)
    ensures var r := ParseAndPrint(Torrent(f), host).value;
      && ("id" in f ==> r.descLink == DetailBase + PyStr(f["id"]))
      && ("id" !in f ==> r.descLink == DetailBase)
  {
    if "id" !in f {
      assert DetailBase + "" == DetailBase;
    }
  }

  /** A missing title falls back to `name`, and without either the name
      starts with "Unknown Title" (which the author annotation may extend). */
  lemma RecordTitle(f: map<string, Scalar>, host: Host)
    ensures var r := ParseAndPrint(Torrent(f), host).value;
      var info := Get(f, "author_info", Str(""));
      && ("title" in f ==> r.name == Annotate(f["title"], info, host.decodeJson))
      && ("title" !in f && "name" in f ==> r.name == Annotate(f["name"], info, host.decodeJson))
      && ("title" !in f && "name" !in f ==>
            r.name.Str? && |r.name.s| >= 13 && r.name.s[..13] == "Unknown Title")
  {
    var r := ParseAndPrint(Torrent(f), host).value;
    var info := Get(f, "author_info", Str(""));
    assert r.name == Annotate(Title(f), info, host.decodeJson);
    if "title" !in f && "name" !in f {
      assert Title(f) == Str("Unknown Title");
      AnnotateExtends(Str("Unknown Title"), info, host.decodeJson);
    }
  }

  /** The annotation only ever appends to a string title. */
  lemma AnnotateExtends(title: Scalar, info: Scalar, decode: string -> Option<Json>)
    requires title.Str?
    ensures var r := Annotate(title, info, decode);
      r.Str? && |r.s| >= |title.s| && r.s[..|title.s|] == title.s
  {
    if Annotatable(title, info, decode) {
      var names := FirstTwoNames(decode(info.s).value.values).value;
      ConcatParts(title.s, " - " + Join(names, ", "));
      assert title.s + " - " + Join(names, ", ") == title.s + (" - " + Join(names, ", "));
    }
  }

  /** The link of a record is the hash form when `dl` is truthy and the
      `?tid=` form with the torrent id otherwise. */
  lemma RecordLink(f: map<string, Scalar>, host: Host)
    ensures var r := ParseAndPrint(Torrent(f), host).value;
      var dl := Get(f, "dl", Str(""));
      && (Truthy(dl) ==> ParseDownloadLink(r.link) == ByHash(PyStr(dl)))
      && (!Truthy(dl) ==> ParseDownloadLink(r.link) == ById(PyStr(Get(f, "id", Str("")))))
  {
    DownloadLinkRoundTrip(Get(f, "dl", Str("")), PyStr(Get(f, "id", Str(""))));
  }

  // ---------------------------------------------------------------------------
  // search

  /** `parse_and_print_result` as the function the loop applies to each element. */
  function Printer(host: Host): Item -> Option<Record> {
    item => ParseAndPrint(item, host)
  }

  /** `search(what, cat)`: nothing at all without both credentials; otherwise
      at most one request, and the records of its `data` list, when that is
      a list, in order. */
  function Search(what: string, cat: string, cfg: Config, host: Host): (o: Outcome)
    ensures cfg.username == "" || cfg.password == "" ==> o.requests == [] && o.records == []
    ensures |o.requests| <= 1
    ensures |o.requests| == 1 ==>
      && o.requests[0].url == SearchUrl
      && o.requests[0].body.text == what
      && o.requests[0].body.cat == [CategoryCode(cat)]
      && o.requests[0].body.startNumber == "0"
    ensures |o.requests| == 1 ==>
      && Headers(cfg, host.b64) == Some(o.requests[0].headers)
      && o.requests[0].body == SearchBodyFor(what, cat)
    ensures o.requests == [] ==> o.records == []
    ensures |o.requests| == 1 ==>
      match host.transport(o.requests[0])
      case Body(Some(Items(xs))) => o.records == Collect(xs, Printer(host))
      case _ => o.records == []
  {
    if cfg.username == "" || cfg.password == "" then Outcome([], [])
    else match Headers(cfg, host.b64)
      case None => Outcome([], [])
      case Some(headers) =>
        var request := Request(SearchUrl, SearchBodyFor(what, cat), headers);
        var records :=
          match host.transport(request)
          case Body(Some(Items(xs))) => Collect(xs, Printer(host))
          case _ => [];
        Outcome([request], records)
  }

  /** With both credentials set, a request is sent unless they are not ASCII,
      and it carries exactly one of the two authentication headers. */
  lemma SearchAuthenticates(what: string, cat: string, cfg: Config, host: Host)
    requires cfg.username != "" && cfg.password != ""
    ensures var o := Search(what, cat, cfg, host);
      && (|o.requests| == 1 <==> cfg.cookies != "" || IsAscii(cfg.username + ":" + cfg.password))
      && (|o.requests| == 1 ==>
            var h := o.requests[0].headers;
            && ("Cookie" in h <==> cfg.cookies != "")
            && ("Authorization" in h <==> cfg.cookies == ""))
  {
  }
}

=== FILE: sizes.dfy ===
/** Human-readable byte sizes, as both scripts print them. The printed number
    is a float; the model keeps the byte count, the unit index and the whole
    part of the quotient, and records which float rendering the script uses. */
module Sizes {
  import opened Builtins

  const Units: seq<string> := ["B", "KB", "MB", "GB", "TB"]

  /** How the script renders the float quotient: `round(x, 2)` printed with
      `str` (the plugin script) or the fixed format `:.1f` (mam.py). */
  datatype Style = RoundTwo | FixedOne

  /** The size column: literal text, or `bytes / 1024^unit` rendered in
      `style` and followed by a space and `Units[unit]`; `whole` is the
      integer part of that quotient. */
  datatype SizeText =
    | Literal(text: string)
    | Scaled(bytes: int, unit: nat, whole: int, style: Style)

  /** ⌊log₁₀₂₄ n⌋, the power of 1024 that brackets `n`. */
  function Log1024(n: nat): (k: nat)
    requires n >= 1
    ensures Pow(1024, k) <= n < Pow(1024, k + 1)
    decreases n
  {
    if n < 1024 then 0
    else
      var k := Log1024(n / 1024);
      assert Pow(1024, k + 1) == 1024 * Pow(1024, k);
      assert Pow(1024, k + 2) == 1024 * Pow(1024, k + 1);
      k + 1
  }

  /** Only one power of 1024 brackets a number. */
  lemma Log1024Unique(n: nat, k: nat)
    requires n >= 1 && Pow(1024, k) <= n < Pow(1024, k + 1)
    ensures Log1024(n) == k
  {
    var m := Log1024(n);
    if m < k {
      PowMonotone(1024, m + 1, k);
    } else if k < m {
      PowMonotone(1024, k + 1, m);
    }
  }

  lemma MulMonotone(a: nat, x: nat, y: nat)
    requires x <= y
    ensures a * x <= a * y
  {
    assert a * y == a * x + a * (y - x);
  }

  lemma DivUnique(n: nat, d: nat, q: nat, r: nat)
    requires d >= 1 && n == d * q + r && r < d
    ensures n / d == q
  {
    var q', r' := n / d, n % d;
    assert n == d * q' + r';
    if q' > q {
      assert d * q' == d * q + d * (q' - q);
      MulMonotone(d, 1, q' - q);
    } else if q' < q {
      assert d * q == d * q' + d * (q - q');
      MulMonotone(d, 1, q - q');
    }
  }

  lemma DivDiv(n: nat, a: nat, b: nat)
    requires a >= 1 && b >= 1
    ensures n / a / b == n / (a * b)
  {
    var q1, r1 := n / a, n % a;
    var q, r2 := q1 / b, q1 % b;
    Regroup(n, a, b, q1, r1, q, r2);
    RemainderBound(a, b, r1, r2);
    DivUnique(n, a * b, q, a * r2 + r1);
  }

  /** `n = a q1 + r1` and `q1 = b q + r2` give `n = (a b) q + (a r2 + r1)`. */
  lemma Regroup(n: int, a: int, b: int, q1: int, r1: int, q: int, r2: int)
    requires n == a * q1 + r1 && q1 == b * q + r2
    ensures n == (a * b) * q + (a * r2 + r1)
  {
    assert a * q1 == a * (b * q) + a * r2;
    assert a * (b * q) == (a * b) * q;
  }

  lemma RemainderBound(a: nat, b: nat, r1: nat, r2: nat)
    requires r1 < a && r2 < b
    ensures a * r2 + r1 < a * b
  {
    MulMonotone(a, r2, b - 1);
    assert a * (b - 1) == a * b - a;
  }

  /** A count bracketed by 1024^k and 1024^(k+1) prints a whole part in 1..1023. */
  lemma BracketedWhole(n: nat, k: nat)
    requires Pow(1024, k) <= n < Pow(1024, k + 1)
    ensures 1 <= n / Pow(1024, k) < 1024
  {
    var p := Pow(1024, k);
    var q, r := n / p, n % p;
    assert n == p * q + r;
    assert Pow(1024, k + 1) == p * 1024;
    if q >= 1024 {
      MulMonotone(p, 1024, q);
    }
  }

  // ---------------------------------------------------------------------------
  // myanonymouse-qbittorrent-plugin.py: format_size_bytes

  /** `format_size_bytes(v)`: digits-only text is read as a byte count, any
      other value counts as zero; zero prints "0 B"; a count of 1024⁵ or more
      indexes past "TB", the `IndexError` is caught and the raw text returned. */
  function FormatSizeBytes(v: Scalar): (r: SizeText)
    ensures var t := PyStr(v);
      r == Literal("0 B") <==> !IsDigitString(t) || DigitsValue(t) == 0
    ensures var t := PyStr(v);
      r.Scaled? <==> IsDigitString(t) && 0 < DigitsValue(t) < Pow(1024, |Units|)
    ensures var t := PyStr(v);
      IsDigitString(t) && DigitsValue(t) >= Pow(1024, |Units|) ==> r == Literal(t)
    ensures r.Scaled? ==>
      && IsDigitString(PyStr(v)) && r.bytes == DigitsValue(PyStr(v))
      && r.unit < |Units| && r.style == RoundTwo
      && Pow(1024, r.unit) <= r.bytes < Pow(1024, r.unit + 1)
      && r.whole == r.bytes / Pow(1024, r.unit) && 1 <= r.whole < 1024
  {
    var text := PyStr(v);
    var n: nat := if IsDigitString(text) then DigitsValue(text) else 0;
    if n == 0 then Literal("0 B")
    else
      var i := Log1024(n);
      if i < |Units| then
        PowMonotone(1024, i + 1, |Units|);
        BracketedWhole(n, i);
        Scaled(n, i, n / Pow(1024, i), RoundTwo)
      else
        PowMonotone(1024, |Units|, i);
        Literal(text)
  }

  // ---------------------------------------------------------------------------
  // mam.py: _format_size

  /** `float(n)` raises `OverflowError` once `n` rounds past the largest
      double, 2¹⁰²⁴ − 2⁹⁷¹; the halfway point 2¹⁰²⁴ − 2⁹⁷⁰ (written out below
      in hexadecimal) already rounds up. */
  const FloatLimit: int :=
    0xFFFFFFFFFFFFFC00_0000000000000000_0000000000000000_0000000000000000_0000000000000000_0000000000000000_0000000000000000_0000000000000000_0000000000000000_0000000000000000_0000000000000000_0000000000000000_0000000000000000_0000000000000000_0000000000000000_0000000000000000

  predicate FloatOverflows(n: int) {
    n >= FloatLimit || n <= -FloatLimit
  }

  /** The unit `_format_size` settles on: divide while the value is at least
      1024 and the unit index is below 4. */
  function MamUnit(n: int): (u: nat)
    ensures u < |Units|
  {
    if n < 1024 then 0 else Min(|Units| - 1, Log1024(n))
  }

  /** `_format_size(n)`; `None` where `float(n)` raises. */
  function FormatSize(n: int): (r: Option<SizeText>)
    ensures n == 0 ==> r == Some(Literal("0 B"))
    ensures n != 0 ==> (r.None? <==> FloatOverflows(n))
    ensures n != 0 && r.Some? ==>
      && r.value.Scaled? && r.value.bytes == n && r.value.style == FixedOne
      && r.value.unit < |Units|
      && r.value.whole == n / Pow(1024, r.value.unit)
      && (n < 1024 ==> r.value.unit == 0)
      && (n >= 1024 ==> 1 <= r.value.unit && Pow(1024, r.value.unit) <= n)
      && (n >= 1024 && r.value.unit < |Units| - 1 ==> n < Pow(1024, r.value.unit + 1))
  {
    if n == 0 then Some(Literal("0 B"))
    else if FloatOverflows(n) then None
    else
      var u := MamUnit(n);
      if n >= 1024 then
        PowMonotone(1024, u, Log1024(n));
        Some(Scaled(n, u, n / Pow(1024, u), FixedOne))
      else
        Some(Scaled(n, u, n / Pow(1024, u), FixedOne))
  }

  /** One more division by 1024 moves to the next power. */
  lemma DivideStep(n: nat, i: nat)
    ensures n / Pow(1024, i) / 1024 == n / Pow(1024, i + 1)
  {
    DivDiv(n, Pow(1024, i), 1024);
    assert Pow(1024, i + 1) == Pow(1024, i) * 1024;
  }

  /** Where the loop stops is the unit `MamUnit` names. */
  lemma LoopExitUnit(n: int, i: nat)
    requires i < |Units|
    requires n < 1024 ==> i == 0
    requires n >= 1024 ==> 1 <= i && Pow(1024, i) <= n
    requires n >= 1024 && i < |Units| - 1 ==> n / Pow(1024, i) < 1024
    ensures i == MamUnit(n)
  {
    if n >= 1024 {
      if i < |Units| - 1 {
        BracketFromQuotient(n, i);
        Log1024Unique(n, i);
      } else {
        PowMonotone(1024, |Units|, Log1024(n) + 1);
      }
    }
  }

  lemma BracketFromQuotient(n: nat, k: nat)
    requires n / Pow(1024, k) < 1024
    ensures n < Pow(1024, k + 1)
  {
    var p := Pow(1024, k);
    var q, r := n / p, n % p;
    assert n == p * q + r;
    assert Pow(1024, k + 1) == p * 1024;
    MulMonotone(p, q + 1, 1024);
  }

  lemma ReachesNextPower(n: nat, k: nat)
    requires n / Pow(1024, k) >= 1024
    ensures Pow(1024, k + 1) <= n
  {
    var p := Pow(1024, k);
    var q, r := n / p, n % p;
    assert n == p * q + r;
    assert Pow(1024, k + 1) == p * 1024;
    MulMonotone(p, 1024, q);
  }

  /** The loop `_format_size` runs, on integers: dividing the float by 1024
      is exact, and for a non-negative count `x / 1024^i >= 1024` holds
      exactly when `n / 1024^i >= 1024` does in integer division. */
  method FormatSizeLoop(n: int) returns (r: Option<SizeText>)
    ensures r == FormatSize(n)
  {
    if n == 0 {
      return Some(Literal("0 B"));
    }
    if FloatOverflows(n) {
      return None;
    }
    var size := n;
    var i := 0;
    while size >= 1024 && i < |Units| - 1
      invariant 0 <= i < |Units|
      invariant n < 1024 ==> i == 0 && size == n
      invariant n >= 1024 ==> size == n / Pow(1024, i)
      invariant n >= 1024 && i > 0 ==> Pow(1024, i) <= n
      decreases |Units| - 1 - i
    {
      DivideStep(n, i);
      ReachesNextPower(n, i);
      size := size / 1024;
      i := i + 1;
    }
    LoopExitUnit(n, i);
    return Some(Scaled(n, i, size, FixedOne));
  }
}
